=== FILE: README.md ===
# Promo Sensei core, modelled in Dafny

Promo Sensei scrapes promotional offers from shopping sites, stores them in a
flat vector index next to a parallel list of offer records, and answers
questions about them through a language model. This project models three
parts of it as pure Dafny functions and methods and proves properties about
them:

- **The vector store manager** (`VectorDBManager`), in `vector_store.dfy`. It
  covers loading or initialising the two files, the newline normalisation and
  failure-to-`None` contract of the embedding call, the ingestion loop with
  its lockstep staging, the commit that fixes the index dimension, and the
  mapping of the index's search labels back to records. The embedding
  service and the index's k-nearest search are oracles passed in as
  functions.
- **The retrieval and formatting layer** (`RAGQueryProcessor`), in
  `flipkart_url.dfy` and `rag_query.dfy`. It covers:
  - the Flipkart tracking-parameter stripper;
  - the numbered context formatter;
  - the prompt choice in `query_llm`;
  - the "last k" selection of `summarize_top_deals`;
  - the case-insensitive brand filter of `list_offers_by_brand`;
  - the fixed sentinel and apology strings.

  The completion service is an oracle from a `Prompt` value to
  `Result<string>`.
- **Pure fragments of the scraper** (`WebScraper`):
  - page counts, base-URL normalisation and page URLs, in `pagination.dfy`;
  - `pad_list` and `_extract_brand_from_url`, in `scrape_helpers.dfy`;
  - the Amazon deals branch (link collection, brand clean-up, record shape
    and the per-site cap), in `amazon.dfy`.

An offer record is a `map<string, Value>` with `Value = Null | Str(text)`
(`offers.dfy`). A key that is missing from the map is an absent field, which
is not the same as a field stored as `None`. `Get` mirrors `dict.get`, which
falls back to its default only when the key is absent. `Render` mirrors
f-string printing, which prints a stored `None` as `None`. `results.dfy`
holds `Option` and `Result`. `strings.dfy` holds the Python string builtins
the code uses: `in`, `startswith`, `endswith`, `lower`, `capitalize`,
`strip`, `rstrip`, `replace`, `isdigit`, `int` and `str` of naturals.

Behaviour of the code worth knowing:
- Loading does not compare the two files' lengths.
- An embedding that comes back as an empty list is skipped just like a
  failed one.
- A `-1` search label passes the `idx < len(metadata)` test and resolves to
  the last record under Python indexing.
- `summarize_top_deals(0)` selects the whole store.
- Two errors are not caught by the entry points and surface as `Failure`:
  - a query vector whose dimension differs from the index's;
  - a stored `None` brand in the brand listing.

## Model

Some functions have no row of their own, because a lemma row states what
they promise: `EmbeddingText` (`EmbeddingTextFrame`,
`EmbeddingTextUsesFiveFields`, `ExpiryRendering`), `Save` (`SaveThenLoad`),
`IngestOffers` (`IngestData`, `IngestPreservesParallel`), `OfferBlock` and
`LinkLine` (`LinkShownIff`, `LinkInBlock`), and `Collect` (`CollectBound`,
`CollectTakesFirstSuccesses`).

| member | source | states |
|---|---|---|
| VectorStore.LoadOrInit | ingest_to_vector_db.py:24-41 | with both files present the stored index and metadata are taken as they are, with no length check; with either file missing the store is empty (no index, no records) |
| VectorStore.SaveThenLoad | ingest_to_vector_db.py:94-99 | loading the two files a save wrote gives back exactly the saved store |
| VectorStore.NormalizeNewlines | ingest_to_vector_db.py:45 | same length as the input, no newline left, every newline replaced by a space and every other character kept |
| VectorStore.GetEmbedding | ingest_to_vector_db.py:43-53 | the result is `None` exactly when the service fails on the newline-normalised text, and otherwise is the service's vector |
| VectorStore.NewlinesEmbedAsSpaces | ingest_to_vector_db.py:45-46 | two texts that differ only by newline versus space get the same embedding result |
| VectorStore.EmbeddingTextFrame | ingest_to_vector_db.py:64-70 | the embedding text starts with the `Title: …. ` part and ends with the `Expiry: ….` part |
| VectorStore.EmbeddingTextUsesFiveFields | ingest_to_vector_db.py:64-70 | records that agree on title, description, brand, category and expiry get the same embedding text, whatever their other fields |
| VectorStore.ExpiryRendering | ingest_to_vector_db.py:69 | the embedding text ends with `Expiry: None.` for a stored `None` expiry and with `Expiry: N/A.` for a missing one |
| VectorStore.Stage | ingest_to_vector_db.py:60-74 | staged vectors and staged records have equal length, no more than the offers; each staged vector is the non-empty embedding of the record staged with it |
| VectorStore.StagedIffEmbeds | ingest_to_vector_db.py:71-74 | a record is staged if and only if it is one of the offers and its embedding is truthy (present and non-empty) |
| VectorStore.StageConcat | ingest_to_vector_db.py:63-74 | staging is an in-order filter: staging a concatenation stages each part and concatenates the results |
| VectorStore.Commit | ingest_to_vector_db.py:76-89 | nothing staged leaves the store alone; a batch whose vectors do not all have the target dimension (the index's, or the first vector's when there is no index) raises; otherwise the vectors are appended to the index, the records to the metadata, and the dimension is the target |
| VectorStore.IngestData | ingest_to_vector_db.py:55-92 | the two-list loop computes the same outcome as staging followed by the commit; empty input changes nothing; on success the index and the metadata grow by the same count |
| VectorStore.StageLoop | ingest_to_vector_db.py:63-74 | the loop filling the two staging lists in step produces exactly the vectors and records that staging defines |
| VectorStore.IngestPreservesParallel | ingest_to_vector_db.py:82-89 | ingestion keeps one record per vector, and the metadata grows by exactly the number of staged records |
| VectorStore.IngestAppendsOnly | ingest_to_vector_db.py:55-92 | existing vectors and records keep their positions; an outcome that saves nothing leaves the store unchanged |
| VectorStore.IngestTwiceDuplicates | ingest_to_vector_db.py:82-89 | ingesting the same batch twice appends its staged records twice, since nothing de-duplicates |
| VectorStore.ResolveLabels | ingest_to_vector_db.py:115-119 | at most one record per label, and every record returned comes from the metadata |
| VectorStore.ResolveInRange | ingest_to_vector_db.py:116-118 | when every label is below the metadata length, label i yields exactly `metadata[label]`, with `-1` read from the end, in label order |
| VectorStore.ResolveDropsStale | ingest_to_vector_db.py:117 | labels at or past the metadata length yield nothing |
| VectorStore.ResolvePadding | ingest_to_vector_db.py:112-119 | for a flat index's answer (valid positions, then `-1` padding) exactly k records come back: the hits, then the last record once per padding label |
| VectorStore.SearchOffers | ingest_to_vector_db.py:101-119 | no index, no records, or no query embedding give an empty list; the search fails if and only if a query vector exists whose dimension differs from the index's, or k is 0; every record found is in the metadata |
| FlipkartUrl.StripTracking | rag_query.py:25 | removing the `&param=`, `&hpid=` and `&ctx=` segments never lengthens the URL |
| FlipkartUrl.StripKeepsLengthIff | rag_query.py:25 | the substitution removes text if and only if some position of the URL starts a tracking segment |
| FlipkartUrl.StripKeepsLeadingAmp | rag_query.py:25 | after a removed segment the remaining text starts with `&` or is empty, and so does what stripping leaves of it |
| FlipkartUrl.StripAgreesUpToAmp | rag_query.py:25 | the stripped text, up to and including its first `&`, is a prefix of the input |
| FlipkartUrl.KeptHeadStartsNoSegment | rag_query.py:25 | a kept first character never forms a new `&param=`, `&hpid=` or `&ctx=` with the text after a removal |
| FlipkartUrl.StripLeavesNoTracking | rag_query.py:25 | no tracking segment is left anywhere in the substitution's result |
| FlipkartUrl.StripIdentity | rag_query.py:25 | a URL with no tracking segment is unchanged by the substitution |
| FlipkartUrl.StripSkipsPlainPrefix | rag_query.py:25 | a stretch without `&` is copied through unchanged, whatever follows it |
| FlipkartUrl.StripDropsSegment | rag_query.py:25 | a whole segment (`&key=`, then a value up to the next `&` or the end) is removed |
| FlipkartUrl.StripKeepsOtherParam | rag_query.py:18-25 | a non-tracking parameter `&key=value` (no further `&` in it) is kept verbatim, and stripping goes on after it, so `?pid=1&lid=2&param=x` keeps `&lid=2` |
| FlipkartUrl.TrimSeparators | rag_query.py:27-31 | the result is the input with its trailing run of `&` removed and then the trailing run of `?` removed from that (exactly those characters, nothing else); an input ending in neither is returned as it is |
| FlipkartUrl.CleanFlipkartUrl | rag_query.py:17-34 | a URL without `flipkart.com` is returned unchanged; otherwise the result is the substitution's output with its trailing `&` run and then its trailing `?` run removed, so it has no tracking segment and does not end with `?` |
| FlipkartUrl.CleanDropsTrailingSegments | rag_query.py:22-33 | `base&param=v1&hpid=v2` cleans to `base` (for example `…/p/x?pid=1&param=foo&hpid=bar` gives `…/p/x?pid=1`) |
| FlipkartUrl.CleanExampleLink | rag_query.py:22-33 | `https://www.flipkart.com/p/x?pid=1&param=foo&hpid=bar` cleans to `https://www.flipkart.com/p/x?pid=1` |
| FlipkartUrl.FirstParameterKept | rag_query.py:17-34 | a URL that contains `flipkart.com`, has no `&` and does not end in `?` is unchanged, even with a tracking key right after `?` |
| FlipkartUrl.CleanCanEndWithAmp | rag_query.py:28-31 | a URL ending in `&?` cleans to one ending in `&`: the `&` run is stripped before the `?` run |
| RagQuery.Reply | rag_query.py:93-105 | a failing completion gives the entry point's apology, a successful one its stripped text |
| RagQuery.DisplayLink | rag_query.py:48-50 | the link is left alone unless the brand is truthy and contains `flipkart` ignoring case and the link is truthy and not `N/A`; in that case the shown link is the stored one passed through `_clean_flipkart_url`, so a Flipkart link holds no tracking segment |
| RagQuery.LinkShownIff | rag_query.py:58-61 | the link line is the Markdown link `[View Offer](link)` if and only if the link is truthy and not `N/A`, and the link itself appears in it |
| RagQuery.LinkInBlock | rag_query.py:53-61 | the block of an offer contains its displayed link as `[View Offer](link)` whenever that link is truthy and not `N/A` |
| RagQuery.FlipkartLinkShown | rag_query.py:41-61 | for a Flipkart offer anywhere in the list, the formatted context contains `[View Offer](…)` around its cleaned link, whenever the cleaned link is still truthy and not `N/A` |
| RagQuery.FlipkartOfferShowsCleanLink | rag_query.py:17-61 | a record with brand `Flipkart` and link `https://www.flipkart.com/p/x?pid=1&param=foo&hpid=bar` is shown in the context with the link `https://www.flipkart.com/p/x?pid=1` |
| RagQuery.FormatOffers | rag_query.py:36-62 | the text is the sentinel `No relevant offers found.` if and only if there are no offers, and otherwise starts with the header |
| RagQuery.NumberedSplit | rag_query.py:41-61 | numbering carries on across a split of the offer list |
| RagQuery.BlockPosition | rag_query.py:41-61 | the i-th offer appears as block `Offer i+1:`, after the blocks of the offers before it and before those after it |
| RagQuery.AppendBlocks | rag_query.py:40-62 | the loop appending one numbered block per offer to the header builds the header followed by the blocks numbered from 1 |
| RagQuery.FormatOffersForLlm | rag_query.py:36-62 | the method builds exactly the text `FormatOffers` defines |
| RagQuery.QueryLlm | rag_query.py:64-105 | fails exactly when the search fails; the no-results prompt is sent exactly when the context contains `No relevant offers found`; the other prompt carries the formatted search results; both carry the user's query; a successful completion gives its stripped text and a failing one the fixed apology |
| RagQuery.NothingFoundAsksNoResults | rag_query.py:66-77 | with no index, no records or no query embedding, the query succeeds and sends the no-results prompt |
| RagQuery.MarkerInTitleReadsAsEmpty | rag_query.py:70-72 | a retrieved offer whose title holds `No relevant offers found` makes the context read as empty |
| RagQuery.RecentOffers | rag_query.py:111 | for k > 0 the last `min(k, len)` records; for k = 0 the whole store (`[-0:]`); for k < 0 the records after the first -k |
| RagQuery.RecentOffersSize | rag_query.py:111-114 | for k >= 0 the selection holds k records, or all of them when k is 0 or at least the store size, and it is empty exactly when the store is |
| RagQuery.SummarizeTopDeals | rag_query.py:107-137 | with an empty selection the reply is the fixed sentence and no prompt is sent; otherwise the summary prompt carries the formatted selection, a successful completion gives its stripped text and a failing one the summary apology |
| RagQuery.EmptyStoreSummary | rag_query.py:113-114 | an empty store gets the same fixed answer whatever the completion service would say |
| RagQuery.BrandMatches | rag_query.py:145-148 | a record is selected if and only if it is in the store and its brand (empty when missing) equals the query ignoring case |
| RagQuery.BrandMatchesSplit | rag_query.py:145-148 | matching keeps store order: it distributes over concatenation |
| RagQuery.BrandMatchesIgnoreCase | rag_query.py:147 | queries with equal lower-case forms select the same records |
| RagQuery.ListOffersByBrand | rag_query.py:139-174 | an empty store gives `No offers available…`; it fails exactly when a non-empty store holds a `None` brand; with no match it gives `I couldn't find…` and sends nothing; otherwise the brand prompt carries the formatted matches, a successful completion gives its stripped text and a failing one the brand apology |
| Pagination.Total | scraper.py:64-65 | the `(\d+)` group captures exactly when the text at that point starts with a digit |
| Pagination.FindPageOf | scraper.py:64 | the leftmost match: a result is the total captured at some position where `Page \d+ of (\d+)` matches, with no match at any earlier position; no result means it matches nowhere |
| Pagination.PagerLineYieldsTotal | scraper.py:64-66 | pager text `Page m of n` followed by a non-digit yields `n` |
| Pagination.PagerTotal | scraper.py:63-66 | no pager gives no total; a pager text gives one exactly when the pattern matches somewhere in it, and then the one from the leftmost match |
| Pagination.NykaaPageCount | scraper.py:59-72 | 1 when no total can be read, the total when unlimited, `min(total, limit)` under a positive limit, so never above it; 0 exactly when the pager says `of 0` |
| Pagination.CappedTotal | scraper.py:59-72 | starting from 1, a total read from the pager replaces the default, and a positive limit caps the result with `min`; the count is 0 only for a read total of 0 |
| Pagination.FlipkartDetectedPages | scraper.py:278-284 | a positive count comes only from an element whose text is all digits |
| Pagination.FlipkartReadsPrintedNumber | scraper.py:283-284 | a printed page number is read back as itself |
| Pagination.FlipkartPageCount | scraper.py:291-301 | `min(detected, limit)`, `detected`, `limit` or 1 in the four cases; always at least 1 and at most a positive limit |
| Pagination.DropParam | scraper.py:53 | the `page_no=` substitution never lengthens the URL |
| Pagination.DropParamShrinks | scraper.py:53 | a match at the front makes the URL strictly shorter |
| Pagination.DropParamKeepsHead | scraper.py:53 | without a match at the front the first character is kept, and the URL is unchanged exactly when its tail is |
| Pagination.DropParamIdentity | scraper.py:53 | the `page_no=` removal leaves a URL unchanged if and only if no position of it starts a match |
| Pagination.NormalizeBase | scraper.py:54-57 | the result contains `?` and ends with `?` or `&`; it extends the input by at most one character, and leaves it unchanged exactly when it already has that form |
| Pagination.BaseUrl | scraper.py:271-276 | the pagination base contains `?` and ends with `?` or `&` |
| Pagination.PageUrls | scraper.py:305-306 | one URL per page, `base + key=i` for i = 1 .. total in increasing order |
| Pagination.PageNumberReadsBack | scraper.py:75-76 | the digits after `key=` in page URL i read back as i + 1 |
| Pagination.PageUrlsDistinct | scraper.py:305-306 | no page URL is visited twice |
| Pagination.PageUrlNormalizesToBase | scraper.py:52-57 | re-deriving the base from any page URL built on a parameter-free base gives that base back |
| Pagination.BaseIsFixedAcrossPages | scraper.py:270-276 | for a URL without a page parameter, the base is a fixed point of "build a page URL, then normalise" |
| Pagination.NykaaPageUrls | scraper.py:52-76 | at most `NYKAA_MAX_PAGES` URLs, all on the normalised base |
| Pagination.FlipkartPageUrls | scraper.py:270-306 | between 1 and `FLIPKART_MAX_PAGES` URLs, all on the normalised base |
| ScrapeHelpers.PadList | scraper.py:102-103 | length `max(len(lst), length)`: the list's elements first, `None` after them |
| ScrapeHelpers.PadListPresent | scraper.py:102-103 | dropping the `None` padding gives the list back |
| ScrapeHelpers.MaxLen | scraper.py:99-100 | bounds every column's length and is the length of some column |
| ScrapeHelpers.PadColumns | scraper.py:99-110 | every padded column has the common length `max_len`, and each one without its padding is the column it came from |
| ScrapeHelpers.FindBrand | scraper.py:649 | a match exists if and only if the pattern matches at some position; the name returned is the one captured at the leftmost such position, with no match earlier, and is a non-empty run of `[a-zA-Z0-9-]` |
| ScrapeHelpers.ExtractBrandFromUrl | scraper.py:647-652 | `Unknown Brand` exactly when there is no match; otherwise the captured name capitalised: same length, first character upper-cased, every other character lower-cased |
| ScrapeHelpers.CapitalizedLabel | scraper.py:651 | capitalising a captured name gives a name again, never `Unknown Brand` |
| ScrapeHelpers.UnknownBrandIff | scraper.py:647-652 | `Unknown Brand` is returned if and only if no `[a-zA-Z0-9-]` character is directly followed by `.com`, so always when `.com` does not occur |
| ScrapeHelpers.ShopUrlBrand | scraper.py:649-651 | `https://www.name.com…` gives `name` capitalised |
| Amazon.DealLinks | scraper.py:509-513 | there are no more links than hrefs and every link is non-empty |
| Amazon.DealLinksOne | scraper.py:509-513 | one href gives one link exactly when it is present and non-empty: `https://www.amazon.in` + href when it starts with `/`, the href itself otherwise |
| Amazon.DealLinksSplit | scraper.py:509-513 | links keep the order of the hrefs: the links of a concatenation are the links of each part, concatenated |
| Amazon.DealLinksFrom | scraper.py:509-513 | every link is the full link of some present, non-empty href |
| Amazon.DealLinksAll | scraper.py:509-513 | there is one link per href if and only if every href is present and non-empty |
| Amazon.CleanAmazonBrand | scraper.py:544-545 | the brand is unchanged if and only if it does not contain both `Visit the` and `Store`; with both present it loses at least nine characters |
| Amazon.DealBrand | scraper.py:541-545 | without a byline the brand is `Amazon`; with one, its stripped text, unchanged unless it holds both `Visit the` and `Store`, and then shorter by at least nine characters |
| Amazon.DealRecord | scraper.py:548-557 | the record has a truthy title, a `None` expiry, the given brand and link, and `campaign_info` is `None` exactly when the price is `N/A` |
| Amazon.Scraped | scraper.py:524-562 | a record exists exactly when the deal page loaded, with a `None` expiry and the deal link |
| Amazon.Fetch | scraper.py:524-558 | opening a link yields a record exactly when the page loads, and the record carries that link |
| Amazon.CollectBound | scraper.py:518-522 | the loop takes at most one record per link and, under a positive cap, never more than the room left under it |
| Amazon.CollectTakesFirstSuccesses | scraper.py:518-522 | under a positive cap the loop keeps the first `cap - count` records of the pages that load, and all of them without a cap |
| Amazon.CollectCapped | scraper.py:518-558 | the loop's result is the capped collection; it holds the records of the links opened so far; it stops early only once the cap is reached, and under a positive cap the records before the last opened link are fewer than the cap, so no link is opened after the cap is reached |
| Amazon.CollectAmazonDeals | scraper.py:503-562 | at most `MAX_OFFERS_PER_SITE` records, the first ones in link order among the pages that load; the links opened before the last one yielded fewer than `MAX_OFFERS_PER_SITE` records, so no page is opened after the cap is reached |

## Left out

- I/O is modelled as inputs: the filesystem, pickle and the faiss file
  format, `os.makedirs`, logging, and the OpenAI and browser calls. File
  presence is a `Disk` value, and the embedding, completion, search and
  browser calls are function parameters.
- faiss distance computation and float32 numerics: the index's search is an
  oracle returning labels. The L2 ranking and the tie order are not
  modelled, and vector components are reals.
- Crash atomicity of the two-file save is not modelled; the code does not
  address it either.
- The wording of the prompts: a `Prompt` datatype records which prompt was
  sent and the context it carries, not its persona text.
- Browser automation and HTML selection in the scraper (`scrape_all`, the CSS
  selectors, BeautifulSoup, Playwright, delays) are left out. Element texts
  and hrefs arrive as `Option<string>` inputs, and a page that raises while
  loading is `Broken`.
- `_generic_scrape` is left out: its lazy `DOTALL` regular expressions over raw
  HTML would need a regex engine.
- `_parse_expiry_date` is left out: it depends on `strptime` and the current
  date.
- `slackbot.py` and `config.py` are not part of this model. They hold UI
  plumbing, environment loading and constants; the constants the core uses
  appear as literals.
- Character classes are ASCII only: `lower`, `capitalize`, `isdigit`, `\d`
  and `int` are modelled on ASCII, while Python also applies them to other
  Unicode letters and digits. `strip` uses Python's whitespace set.
- An exception while reading the Nykaa pager or the Flipkart last-page
  element is modelled the same way as a missing element (`None`), which is
  how the code treats it.
- Amazon.CleanAmazonBrand: only the unchanged-iff case and a length bound are
  stated for the cleaned brand, not its exact text. Removing `Visit the` can
  join text into a new `Visit the`, so "the result holds neither phrase"
  would be false.
- VectorStore.SearchOffers: states that every result comes from the metadata.
  The label-by-label correspondence is stated separately by
  `ResolveInRange` and `ResolvePadding`, because it depends on what the
  index oracle returns.
- VectorStore.Commit: numpy's error on a ragged batch and faiss's error on a
  dimension mismatch are both one `Raised` outcome that changes nothing.
  `ingest_data` catches neither.
- Pagination.DropParam: the result of the substitution in general is not
  stated, only that it never lengthens the URL, the unchanged-iff case
  (`DropParamIdentity`) and the page-URL case (`PageUrlNormalizesToBase`).

=== FILE: amazon.dfy ===
/** The Amazon deals branch of the scraper: deal links from the listing,
    one record per deal page that loads, and the per-site cap.  Loading a
    page and reading its elements is an oracle; each element's text is
    `None` when the element is missing. */
module Amazon {

  import opened Results
  import opened Strings
  import opened Seqs
  import opened Offers

  /** Cap on Amazon offers per run; 0 would mean unlimited. */
  const MaxOffersPerSite: nat := 5

  const AmazonOrigin := "https://www.amazon.in"

  /** What a deal page yields: the raw text of each element that exists, or
      `Broken` when loading or reading it raised. */
  datatype DealPage =
    | Broken
    | Loaded(title: Option<string>, price: Option<string>,
             description: Option<string>, byline: Option<string>)

  /** Opening a deal link. */
  type Browser = string -> DealPage

  /** An href that yields a deal link: present and non-empty. */
  predicate Linked(href: Option<string>)
  {
    href.Some? && |href.value| > 0
  }

  /** The deal link of an href: a site-relative one gets the Amazon origin. */
  function FullUrl(href: string): string
  {
    if StartsWith(href, "/") then AmazonOrigin + href else href
  }

  /** What one href adds to the deal links. */
  function LinkOf(href: Option<string>): seq<string>
  {
    if Linked(href) then [FullUrl(href.value)] else []
  }

  /** Hrefs on the listing: empty ones are skipped, site-relative ones get
      the Amazon origin. */
  function DealLinks(hrefs: seq<Option<string>>): (r: seq<string>)
    ensures |r| <= |hrefs|
    ensures forall i :: 0 <= i < |r| ==> |r[i]| > 0
    decreases |hrefs|
  {
    if |hrefs| == 0 then [] else LinkOf(hrefs[0]) + DealLinks(hrefs[1..])
  }

  /** `link` is the deal link of some present, non-empty href. */
  predicate FromSomeHref(hrefs: seq<Option<string>>, link: string)
  {
    exists j :: 0 <= j < |hrefs| && Linked(hrefs[j]) && link == FullUrl(hrefs[j].value)
  }

  /** Every deal link is the link of some present, non-empty href. */
  lemma {:induction false} DealLinksFrom(hrefs: seq<Option<string>>)
    ensures forall i :: 0 <= i < |DealLinks(hrefs)| ==> FromSomeHref(hrefs, DealLinks(hrefs)[i])
    decreases |hrefs|
  {
    if |hrefs| > 0 {
      DealLinksFrom(hrefs[1..]);
      var rest := DealLinks(hrefs[1..]);
      var r := DealLinks(hrefs);
      var h := |LinkOf(hrefs[0])|;
      assert r == LinkOf(hrefs[0]) + rest;
      forall i | 0 <= i < |r|
        ensures FromSomeHref(hrefs, r[i])
      {
        if i < h {
          assert Linked(hrefs[0]) && r[i] == FullUrl(hrefs[0].value);
        } else {
          assert r[i] == rest[i - h];
          assert FromSomeHref(hrefs[1..], rest[i - h]);
          var j :| 0 <= j < |hrefs[1..]| && Linked(hrefs[1..][j]) && rest[i - h] == FullUrl(hrefs[1..][j].value);
          assert hrefs[1..][j] == hrefs[j + 1];
        }
      }
    }
  }

  /** One link per href exactly when every href is present and non-empty. */
  lemma {:induction false} DealLinksAll(hrefs: seq<Option<string>>)
    ensures |DealLinks(hrefs)| == |hrefs| <==> forall j :: 0 <= j < |hrefs| ==> Linked(hrefs[j])
    decreases |hrefs|
  {
    if |hrefs| > 0 {
      DealLinksAll(hrefs[1..]);
      assert forall j :: 1 <= j < |hrefs| ==> hrefs[j] == hrefs[1..][j - 1];
    }
  }

  /** The listing is read link by link, in order: each href contributes
      exactly its own link, if any. */
  lemma {:induction false} DealLinksSplit(a: seq<Option<string>>, b: seq<Option<string>>)
    ensures DealLinks(a + b) == DealLinks(a) + DealLinks(b)
    decreases |a|
  {
    if |a| == 0 {
      assert a + b == b;
    } else {
      assert (a + b)[0] == a[0];
      assert (a + b)[1..] == a[1..] + b;
      DealLinksSplit(a[1..], b);
      AppendAssoc(LinkOf(a[0]), DealLinks(a[1..]), DealLinks(b));
    }
  }

  /** A single href: one link, origin-prefixed when site-relative, exactly
      when it is present and non-empty. */
  lemma DealLinksOne(href: Option<string>)
    ensures Linked(href) && StartsWith(href.value, "/") ==> DealLinks([href]) == [AmazonOrigin + href.value]
    ensures Linked(href) && !StartsWith(href.value, "/") ==> DealLinks([href]) == [href.value]
    ensures !Linked(href) ==> DealLinks([href]) == []
  {
    assert [href][1..] == [];
  }

  /** `text.strip()` when the element exists, else the fallback. */
  function TextOr(element: Option<string>, fallback: string): string
  {
    match element
    case Some(text) => Strip(text)
    case None => fallback
  }

  /** Drop `Visit the` and `Store` from a byline such as `Visit the Boat
      Store`, and strip, but only when both phrases occur. */
  function CleanAmazonBrand(brand: string): (r: string)
    ensures r == brand <==> !(Contains(brand, "Visit the") && Contains(brand, "Store"))
    ensures Contains(brand, "Visit the") && Contains(brand, "Store") ==> |r| <= |brand| - 9
  {
    if Contains(brand, "Visit the") && Contains(brand, "Store") then
      Strip(Replace(Replace(brand, "Visit the", ""), "Store", ""))
    else brand
  }

  /** The brand shown for a deal: the byline, or `Amazon` without one. */
  function DealBrand(byline: Option<string>): (r: string)
    ensures byline.None? ==> r == "Amazon"
    ensures byline.Some? ==>
              var text := Strip(byline.value);
              (r == text <==> !(Contains(text, "Visit the") && Contains(text, "Store")))
              && (Contains(text, "Visit the") && Contains(text, "Store") ==> |r| <= |text| - 9)
  {
    TooLongNotContained("Amazon", "Visit the");
    CleanAmazonBrand(TextOr(byline, "Amazon"))
  }

  /** The record appended for a deal page that loaded. */
  function DealRecord(title: string, price: string, description: string, brand: string, link: string): (o: Offer)
    ensures TitleKey in o && ExpiryKey in o && BrandKey in o && LinkKey in o && CampaignKey in o
    ensures o[ExpiryKey] == Null
    ensures o[LinkKey] == Str(link) && o[BrandKey] == Str(brand)
    ensures Truthy(o[TitleKey])
    ensures o[CampaignKey] == Null <==> price == "N/A"
  {
    map[
      TitleKey := Str(if |title| > 0 then title else "N/A"),
      DescriptionKey := Str(if description != "N/A" || price != "N/A"
                            then description + " | Price: " + price else "N/A"),
      ExpiryKey := Null,
      BrandKey := Str(brand),
      LinkKey := Str(link),
      CategoryKey := Str("E-commerce"),
      CampaignKey := if price != "N/A" then Str("Deal Price: " + price) else Null,
      ChannelsKey := Str("Website")
    ]
  }

  /** The record for a page, or nothing when the page is broken. */
  function Scraped(page: DealPage, link: string): (r: Option<Offer>)
    ensures r.Some? <==> page.Loaded?
    ensures r.Some? ==> ExpiryKey in r.value && LinkKey in r.value
    ensures r.Some? ==> r.value[ExpiryKey] == Null && r.value[LinkKey] == Str(link)
  {
    match page
    case Broken => None
    case Loaded(title, price, description, byline) =>
      Some(DealRecord(TextOr(title, "N/A"), TextOr(price, "N/A"), TextOr(description, "N/A"),
                      DealBrand(byline), link))
  }

  /** Loading one link and building its record. */
  function Fetch(browse: Browser): (f: string -> Option<Offer>)
    ensures forall link :: f(link).Some? <==> browse(link).Loaded?
    ensures forall link :: f(link).Some? ==> LinkKey in f(link).value && f(link).value[LinkKey] == Str(link)
  {
    link => Scraped(browse(link), link)
  }

  /** The results of all links that yield one, in link order: the reference
      the capped loop is measured against. */
  function Successes<T>(links: seq<string>, fetch: string -> Option<T>): (r: seq<T>)
    ensures |r| <= |links|
    decreases |links|
  {
    if |links| == 0 then []
    else
      var rest := Successes(links[1..], fetch);
      match fetch(links[0])
      case Some(o) => [o] + rest
      case None => rest
  }

  /** The loop of the Amazon branch as a recursion: stop before the next
      link once `count` results were taken and the cap is positive. */
  function Collect<T>(links: seq<string>, fetch: string -> Option<T>, limit: nat, count: nat): (r: seq<T>)
    decreases |links|
  {
    if |links| == 0 || (count >= limit && limit > 0) then []
    else
      match fetch(links[0])
      case Some(o) => [o] + Collect(links[1..], fetch, limit, count + 1)
      case None => Collect(links[1..], fetch, limit, count)
  }

  /** The loop takes at most one result per link, and with a positive cap
      never more than the room left under it. */
  lemma {:induction false} CollectBound<T>(links: seq<string>, fetch: string -> Option<T>, limit: nat, count: nat)
    ensures |Collect(links, fetch, limit, count)| <= |links|
    ensures limit > 0 && count <= limit ==> count + |Collect(links, fetch, limit, count)| <= limit
    decreases |links|
  {
    if |links| > 0 && !(count >= limit && limit > 0) {
      CollectBound(links[1..], fetch, limit, if fetch(links[0]).Some? then count + 1 else count);
    }
  }

  /** With a positive cap the loop keeps the first `limit - count` results,
      and all of them without a cap. */
  lemma {:induction false} CollectTakesFirstSuccesses<T>(links: seq<string>, fetch: string -> Option<T>,
                                                        limit: nat, count: nat)
    requires limit == 0 || count <= limit
    ensures var all := Successes(links, fetch);
            Collect(links, fetch, limit, count)
            == if limit > 0 then all[..Min(limit - count, |all|)] else all
    decreases |links|
  {
    if |links| > 0 && !(count >= limit && limit > 0) {
      match fetch(links[0])
      case Some(o) =>
        CollectTakesFirstSuccesses(links[1..], fetch, limit, count + 1);
      case None =>
        CollectTakesFirstSuccesses(links[1..], fetch, limit, count);
    }
  }

  /** What one link adds to the results: its result, if it has one. */
  function Kept<T>(result: Option<T>): (r: seq<T>)
    ensures |r| <= 1
  {
    if result.Some? then [result.value] else []
  }

  /** The results of a sequence extended by one link. */
  lemma {:induction false} SuccessesSnoc<T>(links: seq<string>, link: string, fetch: string -> Option<T>)
    ensures Successes(links + [link], fetch)
            == Successes(links, fetch) + Kept(fetch(link))
    decreases |links|
  {
    if |links| == 0 {
      assert links + [link] == [link];
    } else {
      assert (links + [link])[1..] == links[1..] + [link];
      SuccessesSnoc(links[1..], link, fetch);
      if fetch(links[0]).Some? {
        AppendAssoc([fetch(links[0]).value], Successes(links[1..], fetch),
                    Kept(fetch(link)));
      }
    }
  }

  /** Below the cap, the loop takes the first link's result, if any, and
      goes on with the rest. */
  lemma CollectUnfold<T>(links: seq<string>, fetch: string -> Option<T>, limit: nat, count: nat)
    requires |links| > 0 && !(count >= limit && limit > 0)
    ensures var k := Kept(fetch(links[0]));
            Collect(links, fetch, limit, count) == k + Collect(links[1..], fetch, limit, count + |k|)
  {
    if fetch(links[0]).None? {
      assert [] + Collect(links[1..], fetch, limit, count) == Collect(links[1..], fetch, limit, count);
    }
  }

  /** The results of a prefix one link longer. */
  lemma SuccessesPrefixStep<T>(links: seq<string>, fetch: string -> Option<T>, i: nat)
    requires i < |links|
    ensures Successes(links[..i + 1], fetch) == Successes(links[..i], fetch) + Kept(fetch(links[i]))
  {
    assert links[..i + 1] == links[..i] + [links[i]];
    SuccessesSnoc(links[..i], links[i], fetch);
  }

  /** One turn of the capped loop, below the cap: the results so far grow
      by the link's result, if any, and together with the rest of the loop
      they still make the same whole. */
  lemma CollectStep<T>(links: seq<string>, fetch: string -> Option<T>, limit: nat,
                       i: nat, taken: seq<T>)
    requires i < |links|
    requires !(|taken| >= limit && limit > 0)
    ensures var next := taken + Kept(fetch(links[i]));
            taken + Collect(links[i..], fetch, limit, |taken|)
            == next + Collect(links[i + 1..], fetch, limit, |next|)
  {
    var rest := links[i..];
    assert rest[0] == links[i] && rest[1..] == links[i + 1..];
    CollectUnfold(rest, fetch, limit, |taken|);
    var k := Kept(fetch(links[i]));
    AppendAssoc(taken, k, Collect(links[i + 1..], fetch, limit, |taken| + |k|));
  }

  /** The capped loop: visit links in order, stop once `limit` results
      were taken (when `limit` is positive), keep every result.  `visited`
      counts the links opened. */
  method CollectCapped<T>(links: seq<string>, fetch: string -> Option<T>, limit: nat)
    returns (taken: seq<T>, visited: nat)
    ensures taken == Collect(links, fetch, limit, 0)
    ensures visited <= |links| && taken == Successes(links[..visited], fetch)
    ensures visited < |links| ==> limit > 0 && |taken| == limit
    ensures visited > 0 && limit > 0 ==> |Successes(links[..visited - 1], fetch)| < limit
  {
    taken := [];
    var count := 0;
    var i := 0;
    while i < |links|
      invariant 0 <= i <= |links|
      invariant count == |taken|
      invariant taken == Successes(links[..i], fetch)
      invariant limit > 0 ==> count <= limit
      invariant taken + Collect(links[i..], fetch, limit, count) == Collect(links, fetch, limit, 0)
      invariant i > 0 && limit > 0 ==> |Successes(links[..i - 1], fetch)| < limit
    {
      if count >= limit && limit > 0 {
        break;
      }
      CollectStep(links, fetch, limit, i, taken);
      SuccessesPrefixStep(links, fetch, i);
      var result := fetch(links[i]);
      if result.Some? {
        assert Kept(result) == [result.value];
        taken := taken + [result.value];
        count := count + 1;
      } else {
        assert taken + Kept(result) == taken;
      }
      i := i + 1;
    }
    assert taken + [] == taken;
    visited := i;
  }

  /** The Amazon branch of the scraper: at most `MaxOffersPerSite` records,
      the first ones in link order among the deal pages that load; no deal
      page is opened once the cap is reached. */
  method CollectAmazonDeals(links: seq<string>, browse: Browser) returns (offers: seq<Offer>, visited: nat)
    ensures MaxOffersPerSite > 0 ==> |offers| <= MaxOffersPerSite
    ensures var all := Successes(links, Fetch(browse));
            offers == all[..Min(MaxOffersPerSite, |all|)]
    ensures visited <= |links| && offers == Successes(links[..visited], Fetch(browse))
    ensures visited < |links| ==> |offers| == MaxOffersPerSite
    ensures visited > 0 ==> |Successes(links[..visited - 1], Fetch(browse))| < MaxOffersPerSite
  {
    offers, visited := CollectCapped(links, Fetch(browse), MaxOffersPerSite);
    CollectTakesFirstSuccesses(links, Fetch(browse), MaxOffersPerSite, 0);
  }

}

=== FILE: flipkart_url.dfy ===
/** `_clean_flipkart_url`: the tracking parameters `param`, `hpid` and `ctx`
    are cut out of Flipkart links, then the trailing `&` run and after it the
    trailing `?` run are stripped. */
module FlipkartUrl {

  import opened Strings
  import opened Seqs

  /** A tracking segment starts at `i`: `&param=`, `&hpid=` or `&ctx=`. */
  predicate TrackingAt(s: string, i: nat)
    requires i <= |s|
  {
    StartsWith(s[i..], "&param=") || StartsWith(s[i..], "&hpid=") || StartsWith(s[i..], "&ctx=")
  }

  /** No tracking segment starts anywhere in `s`. */
  predicate TrackingFree(s: string)
  {
    forall i :: 0 <= i <= |s| ==> !TrackingAt(s, i)
  }

  /** Length of the `&key=` prefix of a tracking segment at the front of `s`. */
  function KeyLength(s: string): (n: nat)
    requires TrackingAt(s, 0)
    ensures 0 < n <= |s|
  {
    if StartsWith(s, "&param=") then 7 else if StartsWith(s, "&hpid=") then 6 else 5
  }

  /** `s` holds no `&`. */
  predicate AmpFree(s: string)
  {
    forall i :: 0 <= i < |s| ==> s[i] != '&'
  }

  /** The first `&` at or after `i`, or the end of `s`. */
  function NextAmp(s: string, i: nat): (j: nat)
    requires i <= |s|
    ensures i <= j <= |s|
    ensures j == |s| || s[j] == '&'
    ensures forall m :: i <= m < j ==> s[m] != '&'
    decreases |s| - i
  {
    if i == |s| || s[i] == '&' then i else NextAmp(s, i + 1)
  }

  /** `j` is the first `&` at or after `i` (or the end) exactly when it is
      what `NextAmp` returns. */
  lemma NextAmpIs(s: string, i: nat, j: nat)
    requires i <= j <= |s|
    requires j == |s| || s[j] == '&'
    requires forall m :: i <= m < j ==> s[m] != '&'
    ensures NextAmp(s, i) == j
  {
  }

  /** The end of the tracking segment at the front of `s`: its value runs up
      to the next `&` or to the end. */
  function SegmentEnd(s: string): (n: nat)
    requires TrackingAt(s, 0)
    ensures 0 < n <= |s|
    ensures n == |s| || s[n] == '&'
  {
    NextAmp(s, KeyLength(s))
  }

  /** A text is tracking-free when no segment starts at its front and its
      tail is tracking-free. */
  lemma TrackingFreeCons(s: string)
    requires |s| > 0
    ensures TrackingFree(s) <==> !TrackingAt(s, 0) && TrackingFree(s[1..])
  {
    forall i | 0 <= i <= |s[1..]|
      ensures TrackingAt(s[1..], i) <==> TrackingAt(s, i + 1)
    {
      assert s[1..][i..] == s[i + 1..];
    }
    if !TrackingAt(s, 0) && TrackingFree(s[1..]) {
      forall i | 1 <= i <= |s|
        ensures !TrackingAt(s, i)
      {
        assert !TrackingAt(s[1..], i - 1);
      }
    }
  }

  /** The regular-expression substitution, scanning from the left: a tracking
      segment is dropped, any other character is kept. */
  function StripTracking(s: string): (r: string)
    ensures |r| <= |s|
    decreases |s|
  {
    if |s| == 0 then ""
    else if TrackingAt(s, 0) then StripTracking(s[SegmentEnd(s)..])
    else [s[0]] + StripTracking(s[1..])
  }

  /** Text is removed exactly when some tracking segment starts in it. */
  lemma {:induction false} StripKeepsLengthIff(s: string)
    ensures |StripTracking(s)| == |s| <==> TrackingFree(s)
    decreases |s|
  {
    if |s| > 0 {
      TrackingFreeCons(s);
      if !TrackingAt(s, 0) {
        StripKeepsLengthIff(s[1..]);
      }
    }
  }

  /** After a removal the text resumes at an `&` or at the end, and so does
      what stripping leaves of it. */
  lemma {:induction false} StripKeepsLeadingAmp(u: string)
    requires u == [] || u[0] == '&'
    ensures StripTracking(u) == [] || StripTracking(u)[0] == '&'
    decreases |u|
  {
    if |u| > 0 && TrackingAt(u, 0) {
      StripKeepsLeadingAmp(u[SegmentEnd(u)..]);
    }
  }

  /** `r` up to and including its first `&`. */
  function Lead(r: string): string
    decreases |r|
  {
    if |r| == 0 then [] else if r[0] == '&' then "&" else [r[0]] + Lead(r[1..])
  }

  /** Every tracking segment starts with `&`. */
  lemma TrackingStartsWithAmp(s: string)
    requires |s| > 0 && TrackingAt(s, 0)
    ensures s[0] == '&'
  {
    assert s[0..] == s;
  }

  /** A character other than `&` is kept and stripping goes on after it. */
  lemma StripKeepsPlainHead(t: string)
    requires |t| > 0 && t[0] != '&'
    ensures StripTracking(t) == [t[0]] + StripTracking(t[1..])
  {
    if TrackingAt(t, 0) {
      TrackingStartsWithAmp(t);
    }
  }

  /** Stripping text that starts with `&` leaves nothing or text that starts
      with `&`. */
  lemma StripAmpHead(t: string)
    requires |t| > 0 && t[0] == '&'
    ensures StripTracking(t) == [] || StripTracking(t)[0] == '&'
  {
    StripKeepsLeadingAmp(t);
  }

  /** Stripping changes nothing before the first `&` it leaves: the result's
      text up to that `&` is a prefix of the input. */
  lemma {:induction false} StripAgreesUpToAmp(t: string)
    ensures StartsWith(t, Lead(StripTracking(t)))
    decreases |t|
  {
    if |t| > 0 && t[0] == '&' {
      StripAmpHead(t);
      assert t[..1] == "&";
    } else if |t| > 0 {
      StripKeepsPlainHead(t);
      StripAgreesUpToAmp(t[1..]);
      LeadPlainHead(t[0], StripTracking(t[1..]), t[1..]);
    }
  }

  /** Putting a character other than `&` in front of both sides keeps the
      lead a prefix. */
  lemma LeadPlainHead(c: char, r: string, t: string)
    requires c != '&' && StartsWith(t, Lead(r))
    ensures StartsWith([c] + t, Lead([c] + r))
  {
    assert ([c] + r)[1..] == r;
    assert Lead([c] + r) == [c] + Lead(r);
    assert ([c] + t)[..1 + |Lead(r)|] == [c] + t[..|Lead(r)|];
  }

  /** A prefix without `&` of `r` is a prefix of its lead. */
  lemma {:induction false} PlainPrefixOfLead(r: string, p: string)
    requires StartsWith(r, p)
    requires forall i :: 0 <= i < |p| ==> p[i] != '&'
    ensures StartsWith(Lead(r), p)
    decreases |p|
  {
    if |p| > 0 {
      assert r[0] == p[0];
      assert r[1..][..|p| - 1] == p[1..];
      PlainPrefixOfLead(r[1..], p[1..]);
      assert Lead(r) == [r[0]] + Lead(r[1..]);
      assert Lead(r)[..|p|] == [p[0]] + Lead(r[1..])[..|p| - 1];
    }
  }

  /** A prefix without `&` carries over from the stripped text to the input. */
  lemma PrefixCarriesOver(t: string, p: string)
    requires StartsWith(StripTracking(t), p)
    requires AmpFree(p)
    ensures StartsWith(t, p)
  {
    var lead := Lead(StripTracking(t));
    StripAgreesUpToAmp(t);
    PlainPrefixOfLead(StripTracking(t), p);
    assert t[..|p|] == lead[..|p|];
  }

  /** A segment start is an `&` followed by a key and `=`. */
  lemma TrackingAtSplit(s: string)
    requires |s| > 0
    ensures TrackingAt(s, 0) <==>
              s[0] == '&' && (StartsWith(s[1..], "param=") || StartsWith(s[1..], "hpid=") || StartsWith(s[1..], "ctx="))
  {
    assert s[0..] == s;
    assert "&param=" == ['&'] + "param=" && "&hpid=" == ['&'] + "hpid=" && "&ctx=" == ['&'] + "ctx=";
    StartsWithCons(s, '&', "param=");
    StartsWithCons(s, '&', "hpid=");
    StartsWithCons(s, '&', "ctx=");
  }

  /** The three keys hold no `&`. */
  lemma KeysAmpFree()
    ensures AmpFree("param=") && AmpFree("hpid=") && AmpFree("ctx=")
  {
  }

  /** Whether a segment starts at the front depends only on the first
      character and on which keys the rest starts with. */
  lemma HeadNoSegment(c: char, t: string, u: string)
    requires StartsWith(u, "param=") ==> StartsWith(t, "param=")
    requires StartsWith(u, "hpid=") ==> StartsWith(t, "hpid=")
    requires StartsWith(u, "ctx=") ==> StartsWith(t, "ctx=")
    requires !TrackingAt([c] + t, 0)
    ensures !TrackingAt([c] + u, 0)
  {
    assert ([c] + t)[0] == c && ([c] + t)[1..] == t;
    assert ([c] + u)[0] == c && ([c] + u)[1..] == u;
    TrackingAtSplit([c] + t);
    TrackingAtSplit([c] + u);
  }

  /** Keeping a character that does not start a segment cannot create one
      at the front of the result. */
  lemma KeptHeadStartsNoSegment(s: string)
    requires |s| > 0 && !TrackingAt(s, 0)
    ensures !TrackingAt([s[0]] + StripTracking(s[1..]), 0)
  {
    var r' := StripTracking(s[1..]);
    KeysAmpFree();
    if StartsWith(r', "param=") {
      PrefixCarriesOver(s[1..], "param=");
    }
    if StartsWith(r', "hpid=") {
      PrefixCarriesOver(s[1..], "hpid=");
    }
    if StartsWith(r', "ctx=") {
      PrefixCarriesOver(s[1..], "ctx=");
    }
    assert [s[0]] + s[1..] == s;
    HeadNoSegment(s[0], s[1..], r');
  }

  /** No tracking segment survives the substitution, not even one formed by
      joining the text on either side of a removed segment. */
  lemma {:induction false} StripLeavesNoTracking(s: string)
    ensures TrackingFree(StripTracking(s))
    decreases |s|
  {
    if |s| == 0 {
    } else if TrackingAt(s, 0) {
      StripLeavesNoTracking(s[SegmentEnd(s)..]);
    } else {
      var r' := StripTracking(s[1..]);
      var r := [s[0]] + r';
      assert StripTracking(s) == r;
      StripLeavesNoTracking(s[1..]);
      KeptHeadStartsNoSegment(s);
      forall i | 1 <= i <= |r|
        ensures !TrackingAt(r, i)
      {
        assert r[i..] == r'[i - 1..];
        assert !TrackingAt(r', i - 1);
      }
    }
  }

  /** A URL with nothing to remove passes through the substitution unchanged. */
  lemma {:induction false} StripIdentity(s: string)
    requires TrackingFree(s)
    ensures StripTracking(s) == s
    decreases |s|
  {
    if |s| > 0 {
      assert !TrackingAt(s, 0);
      forall i | 0 <= i <= |s[1..]|
        ensures !TrackingAt(s[1..], i)
      {
        assert s[1..][i..] == s[i + 1..];
        assert !TrackingAt(s, i + 1);
      }
      StripIdentity(s[1..]);
    }
  }

  /** A text map that passes every character other than `&` through passes a
      whole stretch without `&` through. */
  lemma {:induction false} PassesPlainPrefix(f: string -> string, p: string, q: string)
    requires forall c: char, u: string :: c != '&' ==> f([c] + u) == [c] + f(u)
    requires AmpFree(p)
    ensures f(p + q) == p + f(q)
    decreases |p|
  {
    if |p| > 0 {
      var u := p[1..] + q;
      assert p + q == [p[0]] + u;
      assert forall i :: 0 <= i < |p| - 1 ==> p[1..][i] == p[i + 1];
      PassesPlainPrefix(f, p[1..], q);
      assert f(p + q) == [p[0]] + f(u);
      assert [p[0]] + (p[1..] + f(q)) == p + f(q) by {
        assert [p[0]] + p[1..] == p;
      }
    } else {
      assert p + q == q && p + f(q) == f(q);
    }
  }

  /** A stretch without `&` is kept as it is. */
  lemma StripSkipsPlainPrefix(p: string, q: string)
    requires AmpFree(p)
    ensures StripTracking(p + q) == p + StripTracking(q)
  {
    forall c: char, u: string | c != '&'
      ensures StripTracking([c] + u) == [c] + StripTracking(u)
    {
      StripKeepsPlainHead([c] + u);
      assert ([c] + u)[1..] == u;
    }
    PassesPlainPrefix(StripTracking, p, q);
  }

  /** A parameter that is not a tracking one, `&key=value` up to the next
      `&`, is kept as it is, whatever follows it. */
  lemma StripKeepsOtherParam(p: string, rest: string)
    requires |p| > 0 && p[0] == '&' && AmpFree(p[1..])
    requires !TrackingAt(p + rest, 0)
    ensures StripTracking(p + rest) == p + StripTracking(rest)
  {
    SegmentHeadKept(p, rest);
    PlainTailKept(p, rest);
  }

  /** The `&` of a parameter that is not a tracking one is kept. */
  lemma SegmentHeadKept(p: string, rest: string)
    requires |p| > 0 && !TrackingAt(p + rest, 0)
    ensures StripTracking(p + rest) == [p[0]] + StripTracking(p[1..] + rest)
  {
    var t := p + rest;
    StripKeepsHead(t);
    assert t[0] == p[0] && t[1..] == p[1..] + rest;
  }

  /** After a kept first character, a stretch without `&` is kept too. */
  lemma PlainTailKept(p: string, rest: string)
    requires |p| > 0 && AmpFree(p[1..])
    ensures [p[0]] + StripTracking(p[1..] + rest) == p + StripTracking(rest)
  {
    StripSkipsPlainPrefix(p[1..], rest);
    AppendAssoc([p[0]], p[1..], StripTracking(rest));
    assert [p[0]] + p[1..] == p;
  }

  /** A first character that starts no segment is kept, and stripping goes
      on after it. */
  lemma StripKeepsHead(t: string)
    requires |t| > 0 && !TrackingAt(t, 0)
    ensures StripTracking(t) == [t[0]] + StripTracking(t[1..])
  {
  }

  /** A segment start inside a prefix is one in the whole text. */
  lemma TrackingAtPrefix(s: string, n: nat, i: nat)
    requires i <= n <= |s| && TrackingAt(s[..n], i)
    ensures TrackingAt(s, i)
  {
    var a := s[..n][i..];
    assert a == s[i..][..|a|];
    StartsWithExtend(a, s[i..], "&param=");
    StartsWithExtend(a, s[i..], "&hpid=");
    StartsWithExtend(a, s[i..], "&ctx=");
  }

  /** A prefix of a tracking-free text is tracking-free. */
  lemma PrefixTrackingFree(s: string, n: nat)
    requires n <= |s| && TrackingFree(s)
    ensures TrackingFree(s[..n])
  {
    forall i | 0 <= i <= n
      ensures !TrackingAt(s[..n], i)
    {
      if TrackingAt(s[..n], i) {
        TrackingAtPrefix(s, n, i);
      }
    }
  }

  /** The clean-up after the substitution: a trailing `&` run goes first,
      then a trailing `?` run; each test only skips a strip that would find
      nothing to remove. */
  function TrimSeparators(s: string): (r: string)
    ensures exists a :: RStripped(s, a, '&') && RStripped(a, r, '?')
    ensures |r| <= |s| && r == s[..|r|]
    ensures r == [] || r[|r| - 1] != '?'
    ensures !EndsWith(s, "&") && !EndsWith(s, "?") ==> r == s
  {
    EndsWithChar(s, '&');
    var a := if EndsWith(s, "&") then RStripChar(s, '&') else s;
    EndsWithChar(a, '?');
    var r := if EndsWith(a, "?") then RStripChar(a, '?') else a;
    assert RStripped(s, a, '&') && RStripped(a, r, '?');
    r
  }

  /** Trimming separators cannot create a tracking segment. */
  lemma TrimKeepsTrackingFree(s: string)
    requires TrackingFree(s)
    ensures TrackingFree(TrimSeparators(s))
  {
    PrefixTrackingFree(s, |TrimSeparators(s)|);
  }

  /** `_clean_flipkart_url`. */
  function CleanFlipkartUrl(url: string): (r: string)
    ensures !Contains(url, "flipkart.com") ==> r == url
    ensures Contains(url, "flipkart.com") ==> TrackingFree(r)
    ensures Contains(url, "flipkart.com") ==> (r == [] || r[|r| - 1] != '?')
    ensures Contains(url, "flipkart.com") ==>
              |r| <= |StripTracking(url)| && r == StripTracking(url)[..|r|]
    ensures Contains(url, "flipkart.com") ==>
              exists a :: RStripped(StripTracking(url), a, '&') && RStripped(a, r, '?')
  {
    if Contains(url, "flipkart.com") then
      StripLeavesNoTracking(url);
      TrimKeepsTrackingFree(StripTracking(url));
      TrimSeparators(StripTracking(url))
    else url
  }

  /** One whole segment, `&key=` and a value up to the next `&`, is removed. */
  lemma StripDropsSegment(key: string, v: string, rest: string)
    requires key == "&param=" || key == "&hpid=" || key == "&ctx="
    requires AmpFree(v)
    requires rest == [] || rest[0] == '&'
    ensures StripTracking(key + v + rest) == StripTracking(rest)
  {
    var s := key + v + rest;
    assert s[..|key|] == key;
    assert s[0..] == s;
    assert TrackingAt(s, 0);
    assert KeyLength(s) == |key| by {
      if key == "&hpid=" { assert s[1] == 'h'; }
      if key == "&ctx=" { assert s[1] == 'c'; }
    }
    var j := |key| + |v|;
    forall m | |key| <= m < j
      ensures s[m] != '&'
    {
      assert s[m] == v[m - |key|];
      assert v[m - |key|] in v;
    }
    assert j == |s| || s[j] == '&';
    NextAmpIs(s, |key|, j);
    assert s[j..] == rest;
  }

  /** Segments at the end are dropped entirely: with `base` free of `&` and
      not ending in `?`, `base&param=v1&hpid=v2` cleans to `base` (so
      `…/p/x?pid=1&param=foo&hpid=bar` becomes `…/p/x?pid=1`). */
  lemma CleanDropsTrailingSegments(base: string, v1: string, v2: string)
    requires AmpFree(base) && AmpFree(v1) && AmpFree(v2)
    requires Contains(base, "flipkart.com")
    requires base == [] || base[|base| - 1] != '?'
    ensures CleanFlipkartUrl(base + "&param=" + v1 + "&hpid=" + v2) == base
  {
    var seg2 := "&hpid=" + v2;
    var tail := "&param=" + v1 + seg2;
    var url := base + tail;
    assert url == base + "&param=" + v1 + "&hpid=" + v2;
    ContainsInConcat([], base, tail, "flipkart.com");
    assert [] + base + tail == url;
    StripSkipsPlainPrefix(base, tail);
    StripDropsSegment("&hpid=", v2, []);
    assert "&hpid=" + v2 + [] == seg2;
    StripDropsSegment("&param=", v1, seg2);
    assert StripTracking(url) == base;
  }

  /** A URL without `&` keeps every parameter, a tracking key directly after
      `?` included: only `&key=` starts a segment. */
  lemma FirstParameterKept(url: string)
    requires AmpFree(url) && Contains(url, "flipkart.com")
    requires url == [] || url[|url| - 1] != '?'
    ensures CleanFlipkartUrl(url) == url
  {
    StripSkipsPlainPrefix(url, "");
    assert url + "" == url;
  }

  // A tracked product link, `https://www.flipkart.com/p/x?pid=1&param=foo&hpid=bar`,
  // cleans to its bare product link; each step below is kept small so that
  // the string literals stay cheap for the verifier.

  /** The bare product link is on Flipkart's host. */
  lemma ExampleHost(base: string)
    requires base == "https://www.flipkart.com/p/x?pid=1"
    ensures Contains(base, "flipkart.com")
  {
    assert base[12..][..12] == "flipkart.com";
    ContainsAt(base, "flipkart.com", 12);
  }

  /** The bare product link has a single parameter. */
  lemma ExamplePlain(base: string)
    requires base == "https://www.flipkart.com/p/x?pid=1"
    ensures AmpFree(base) && base[|base| - 1] != '?'
  {
  }

  /** The tracked link as the bare link and two named tracking values. */
  lemma CleanExampleParts(link: string, base: string, v1: string, v2: string)
    requires base == "https://www.flipkart.com/p/x?pid=1" && v1 == "foo" && v2 == "bar"
    requires link == base + "&param=" + v1 + "&hpid=" + v2
    ensures CleanFlipkartUrl(link) == base
  {
    ExampleHost(base);
    ExamplePlain(base);
    CleanDropsTrailingSegments(base, v1, v2);
  }

  /** The tracked link as the bare link and its tracking tail. */
  lemma CleanExampleTail(link: string, base: string)
    requires base == "https://www.flipkart.com/p/x?pid=1"
    requires link == base + "&param=foo&hpid=bar"
    ensures CleanFlipkartUrl(link) == base
  {
    CleanExampleParts(link, base, "foo", "bar");
  }

  /** The tracked link cleans to the bare product link. */
  lemma CleanExampleLink(link: string, base: string)
    requires base == "https://www.flipkart.com/p/x?pid=1"
    requires link == "https://www.flipkart.com/p/x?pid=1&param=foo&hpid=bar"
    ensures CleanFlipkartUrl(link) == base
  {
    assert link == base + "&param=foo&hpid=bar";
    CleanExampleTail(link, base);
  }

  /** `&?` holds no tracking segment: it is too short for one. */
  lemma StripAmpQuestion()
    ensures StripTracking("&?") == "&?"
  {
    assert !TrackingAt("&?", 0);
    assert "&?"[1..] == "?";
    StripSkipsPlainPrefix("?", "");
    assert "?" + "" == "?";
  }

  /** The trim takes off the one trailing `?` and then stops, although an
      `&` is left at the end. */
  lemma TrimAmpQuestion(base: string)
    requires base == [] || base[|base| - 1] != '?'
    ensures TrimSeparators(base + "&?") == base + "&"
  {
    var s := base + "&?";
    var t := base + "&";
    assert s[|s| - 1] == '?' && s[..|s| - 1] == t;
    assert t[|t| - 1] == '&';
    EndsWithChar(s, '&');
    EndsWithChar(s, '?');
    RStripCharStep(s, '?');
    RStripCharStop(t, '?');
  }

  /** Stripping `?` after `&` can leave the result ending in `&`. */
  lemma CleanCanEndWithAmp(base: string)
    requires AmpFree(base) && Contains(base, "flipkart.com")
    requires base == [] || base[|base| - 1] != '?'
    ensures CleanFlipkartUrl(base + "&?") == base + "&"
  {
    var url := base + "&?";
    ContainsInConcat([], base, "&?", "flipkart.com");
    assert [] + base + "&?" == url;
    StripSkipsPlainPrefix(base, "&?");
    StripAmpQuestion();
    TrimAmpQuestion(base);
  }
}

=== FILE: offers.dfy ===
/** The offer record shared by the scraper, the vector store and the query
    layer: a Python dict from field name to a value that is either `None`
    or a string.  A key missing from the map is an absent field, which is
    different from a field stored as `None`. */
module Offers {

  datatype Value = Null | Str(text: string)

  type Offer = map<string, Value>

  const TitleKey := "title"
  const DescriptionKey := "description"
  const ExpiryKey := "expiry_date"
  const BrandKey := "brand_name"
  const LinkKey := "offer_link"
  const CategoryKey := "category"
  const CampaignKey := "campaign_info"
  const ChannelsKey := "channels"

  /** `offer.get(key, default)`: the default only stands in for an absent key. */
  function Get(offer: Offer, key: string, default: string): Value
  {
    if key in offer then offer[key] else Str(default)
  }

  /** How a value prints inside an f-string. */
  function Render(v: Value): string
  {
    match v
    case Null => "None"
    case Str(s) => s
  }

  /** Python truthiness of a value: `None` and `''` are false. */
  predicate Truthy(v: Value)
  {
    v.Str? && |v.text| > 0
  }
}

=== FILE: pagination.dfy ===
/** The pure pagination rules of the scraper: how many pages to visit on a
    Nykaa listing and on a Flipkart search, how the base URL is normalised
    before page numbers are appended, and the page URLs themselves.  The
    pager text read from the page is a parameter (`None` when the element is
    missing or reading it raised, which the scraper treats alike). */
module Pagination {

  import opened Results
  import opened Strings
  import opened Seqs
  import opened Scan

  /** Page limits; 0 would mean unlimited. */
  const NykaaMaxPages: nat := 2
  const FlipkartMaxPages: nat := 2

  const NykaaPageKey := "page_no"
  const FlipkartPageKey := "page"

  predicate IsSeparator(c: char)
  {
    c == '?' || c == '&'
  }

  predicate NoSeparators(key: string)
  {
    forall i :: 0 <= i < |key| ==> !IsSeparator(key[i])
  }

  // ---------------------------------------------------------------------------
  // Digit runs (`\d+` is greedy; ASCII digits only)

  /** Length of the run of digits at the front of `s`. */
  function DigitRun(s: string): (n: nat)
    ensures n <= |s| && AllDigits(s[..n])
    ensures n < |s| ==> !IsAsciiDigit(s[n])
    decreases |s|
  {
    if |s| == 0 || !IsAsciiDigit(s[0]) then 0
    else
      var m := DigitRun(s[1..]);
      assert s[..1 + m] == [s[0]] + s[1..][..m];
      1 + m
  }

  /** A string that does not end in a digit bounds the run. */
  lemma DigitRunBelowEnd(s: string)
    requires |s| > 0 && !IsAsciiDigit(s[|s| - 1])
    ensures DigitRun(s) < |s|
  {
    assert s[..|s|] == s;
  }

  /** Text after a run that already stopped does not change it. */
  lemma {:induction false} DigitRunConcat(a: string, b: string)
    requires DigitRun(a) < |a|
    ensures DigitRun(a + b) == DigitRun(a)
    decreases |a|
  {
    if IsAsciiDigit(a[0]) {
      assert (a + b)[1..] == a[1..] + b;
      DigitRunConcat(a[1..], b);
    }
  }

  /** A numeral followed by a non-digit is read in full. */
  lemma {:induction false} DigitRunWhole(a: string, b: string)
    requires AllDigits(a)
    requires b == [] || !IsAsciiDigit(b[0])
    ensures DigitRun(a + b) == |a|
    decreases |a|
  {
    if |a| > 0 {
      assert (a + b)[1..] == a[1..] + b;
      DigitRunWhole(a[1..], b);
    } else {
      assert a + b == b;
    }
  }

  // ---------------------------------------------------------------------------
  // Page counts

  /** The match of `Page \d+ of (\d+)` at the front of `s`, as the captured number. */
  function PageOfAt(s: string): Option<nat>
  {
    if StartsWith(s, "Page ") then CurrentThenTotal(s[5..]) else None
  }

  /** After `Page `: the current page's digits, then ` of ` and the total. */
  function CurrentThenTotal(s: string): Option<nat>
  {
    var a := DigitRun(s);
    if a > 0 && StartsWith(s[a..], " of ") then Total(s[a + 4..]) else None
  }

  /** The captured total: a non-empty digit run, read in full. */
  function Total(s: string): (r: Option<nat>)
    ensures r.Some? <==> |s| > 0 && IsAsciiDigit(s[0])
  {
    var b := DigitRun(s);
    if b > 0 then Some(ParseDecimal(s[..b])) else None
  }

  /** `re.search`: the total captured by the leftmost match in `s`. */
  function FindPageOf(s: string): (r: Option<nat>)
    ensures r.Some? ==> exists i :: LeftmostAt(PageOfAt, s, i, r)
    ensures r.None? ==> forall i :: 0 <= i <= |s| ==> PageOfAt(s[i..]).None?
  {
    Search(PageOfAt, s)
  }

  /** A pager line `Page m of n` at the front of the text yields `n`. */
  lemma PagerLineYieldsTotal(m: nat, n: nat, rest: string)
    requires rest == [] || !IsAsciiDigit(rest[0])
    ensures FindPageOf("Page " + (NatToString(m) + (" of " + (NatToString(n) + rest)))) == Some(n)
  {
    var cur, tot := NatToString(m), NatToString(n);
    var tail := tot + rest;
    var after := " of " + tail;
    assert Total(tail) == Some(n) by {
      DigitRunWhole(tot, rest);
      assert tail[..|tot|] == tot;
      ParseNatToString(n);
    }
    assert CurrentThenTotal(cur + after) == Some(n) by {
      DigitRunWhole(cur, after);
      DropPrefix(cur, after);
      DropPrefix(" of ", tail);
      assert StartsWith(after, " of ");
    }
    var s := "Page " + (cur + after);
    assert PageOfAt(s) == Some(n) by {
      DropPrefix("Page ", cur + after);
      assert StartsWith(s, "Page ");
    }
  }

  /** The total announced by the pager text, if it can be read. */
  function PagerTotal(pager: Option<string>): (r: Option<nat>)
    ensures pager.None? ==> r.None?
    ensures pager.Some? ==>
              (r.Some? <==> exists i :: 0 <= i <= |pager.value| && PageOfAt(pager.value[i..]).Some?)
    ensures r.Some? ==> exists i :: LeftmostAt(PageOfAt, pager.value, i, r)
  {
    match pager
    case Some(text) => FindPageOf(text)
    case None => None
  }

  /** Nykaa: 1 page unless the pager text carries a total, then capped by a
      positive limit. */
  function NykaaPageCount(pager: Option<string>, limit: nat): (r: nat)
    ensures limit > 0 ==> r <= limit
    ensures PagerTotal(pager).None? ==> r == 1
    ensures PagerTotal(pager).Some? && limit == 0 ==> r == PagerTotal(pager).value
    ensures PagerTotal(pager).Some? && limit > 0 ==> r == Min(PagerTotal(pager).value, limit)
    ensures r == 0 <==> PagerTotal(pager) == Some(0)
  {
    CappedTotal(PagerTotal(pager), limit)
  }

  /** The page count from the total read, if any: 1 by default, capped by a
      positive limit. */
  function CappedTotal(total: Option<nat>, limit: nat): (r: nat)
    ensures limit > 0 ==> r <= limit
    ensures total.None? ==> r == 1
    ensures total.Some? && limit == 0 ==> r == total.value
    ensures total.Some? && limit > 0 ==> r == Min(total.value, limit)
    ensures r == 0 <==> total == Some(0)
  {
    var n := if total.Some? then total.value else 1;
    if limit > 0 then Min(n, limit) else n
  }

  /** `text.isdigit()` then `int(text)`; anything else, or no element, reads as 0. */
  function FlipkartDetectedPages(lastPage: Option<string>): (n: nat)
    ensures n > 0 ==> lastPage.Some? && AllDigits(lastPage.value)
  {
    match lastPage
    case Some(text) => if |text| > 0 && AllDigits(text) then ParseDecimal(text) else 0
    case None => 0
  }

  /** The printed page number is read back. */
  lemma FlipkartReadsPrintedNumber(n: nat)
    ensures FlipkartDetectedPages(Some(NatToString(n))) == n
  {
    ParseNatToString(n);
  }

  /** Flipkart: the detected total capped by a positive limit; with nothing
      detected, the limit itself, or 1 when unlimited. */
  function FlipkartPageCount(detected: nat, limit: nat): (r: nat)
    ensures r >= 1
    ensures limit > 0 ==> r <= limit
    ensures detected > 0 ==> r <= detected
    ensures detected > 0 && limit > 0 ==> r == detected || r == limit
    ensures detected > 0 && limit == 0 ==> r == detected
    ensures detected == 0 && limit > 0 ==> r == limit
    ensures detected == 0 && limit == 0 ==> r == 1
  {
    if detected > 0 then (if limit > 0 then Min(detected, limit) else detected)
    else if limit > 0 then limit else 1
  }

  // ---------------------------------------------------------------------------
  // Base URL normalisation

  /** The match of `([?&])key=\d+(&|$)` at the front of `s`, as its length.
      `$` matches at the end or before a final newline. */
  function ParamMatch(s: string, key: string): (r: Option<nat>)
    ensures r.Some? ==> |key| + 2 < r.value <= |s|
  {
    if ParamHead(s, key) then ParamEnd(s, |key| + 2) else None
  }

  /** `([?&])key=` at the front of `s`. */
  predicate ParamHead(s: string, key: string)
  {
    |s| >= |key| + 2 && IsSeparator(s[0]) && s[1..|key| + 2] == key + "="
  }

  /** `\d+(&|$)` from position `k` on, as the end of the whole match. */
  function ParamEnd(s: string, k: nat): (r: Option<nat>)
    requires k <= |s|
    ensures r.Some? ==> k < r.value <= |s|
  {
    var d := DigitRun(s[k..]);
    var e := k + d;
    if d == 0 then None
    else if e < |s| && s[e] == '&' then Some(e + 1)
    else if e == |s| || (e == |s| - 1 && s[e] == '\n') then Some(e)
    else None
  }

  /** `re.sub(r'([?&])key=\d+(&|$)', r'\1', s)`: scanning left to right, each
      match is replaced by its separator and the scan resumes after it. */
  function DropParam(s: string, key: string): (r: string)
    ensures |r| <= |s|
    decreases |s|
  {
    if |s| == 0 then []
    else
      var next := if ParamMatch(s, key).Some? then ParamMatch(s, key).value else 1;
      [s[0]] + DropParam(s[next..], key)
  }

  /** No position of `s` starts a page parameter. */
  predicate ParamFree(s: string, key: string)
  {
    forall i :: 0 <= i < |s| ==> ParamMatch(s[i..], key).None?
  }

  /** The substitution changes nothing exactly when there is nothing to match. */
  lemma {:induction false} DropParamIdentity(s: string, key: string)
    ensures DropParam(s, key) == s <==> ParamFree(s, key)
    decreases |s|
  {
    if |s| > 0 {
      ParamFreeCons(s, key);
      if ParamMatch(s, key).None? {
        DropParamIdentity(s[1..], key);
        DropParamKeepsHead(s, key);
      } else {
        DropParamShrinks(s, key);
      }
    }
  }

  /** With no match at the front, the substitution fixes `s` exactly when it
      fixes the tail. */
  lemma DropParamKeepsHead(s: string, key: string)
    requires |s| > 0 && ParamMatch(s, key).None?
    ensures DropParam(s, key) == s <==> DropParam(s[1..], key) == s[1..]
  {
    DropParamStep(s, key);
    ConsEqual(s[0], DropParam(s[1..], key), s[1..]);
    assert [s[0]] + s[1..] == s;
  }

  /** A string is parameter-free when its first position starts no match
      and the rest is parameter-free. */
  lemma ParamFreeCons(s: string, key: string)
    requires |s| > 0
    ensures ParamFree(s, key) <==> ParamMatch(s, key).None? && ParamFree(s[1..], key)
  {
    assert s[0..] == s;
    assert forall i :: 1 <= i < |s| ==> s[i..] == s[1..][i - 1..];
  }

  /** A match at the front makes the result shorter than the input. */
  lemma DropParamShrinks(s: string, key: string)
    requires |s| > 0 && ParamMatch(s, key).Some?
    ensures |DropParam(s, key)| < |s|
  {
  }

  /** Normalised form: has a query part and ends ready for another parameter. */
  predicate IsBase(url: string)
  {
    '?' in url && |url| > 0 && IsSeparator(url[|url| - 1])
  }

  /** Append `?` when there is no query part, else `&` unless the URL
      already ends in `?` or `&`. */
  function NormalizeBase(url: string): (r: string)
    ensures IsBase(r)
    ensures |url| <= |r| <= |url| + 1 && r[..|url|] == url
    ensures IsBase(url) <==> r == url
  {
    if '?' !in url then
      var r := url + "?";
      assert r[|url|] == '?';
      r
    else if |url| == 0 || !IsSeparator(url[|url| - 1]) then url + "&"
    else url
  }

  /** The base the scraper paginates from. */
  function BaseUrl(url: string, key: string): (r: string)
    ensures IsBase(r)
  {
    NormalizeBase(DropParam(url, key))
  }

  /** `{base}{key}={n}`. */
  function PageUrl(base: string, key: string, n: nat): string
  {
    base + key + "=" + NatToString(n)
  }

  /** Pages 1 .. total, in order. */
  function PageUrls(base: string, key: string, total: nat): (r: seq<string>)
    ensures |r| == total
    ensures forall i :: 0 <= i < total ==> r[i] == PageUrl(base, key, i + 1)
  {
    seq(total, i requires 0 <= i < total => PageUrl(base, key, i + 1))
  }

  /** Every page URL names its own page: the number after `key=` reads back. */
  lemma PageNumberReadsBack(base: string, key: string, total: nat, i: nat)
    requires i < total
    ensures var u := PageUrls(base, key, total)[i];
            |base| + |key| + 1 <= |u|
            && AllDigits(u[|base| + |key| + 1..])
            && ParseDecimal(u[|base| + |key| + 1..]) == i + 1
  {
    var u := PageUrls(base, key, total)[i];
    assert u[|base| + |key| + 1..] == NatToString(i + 1);
    ParseNatToString(i + 1);
  }

  /** No page is visited twice. */
  lemma PageUrlsDistinct(base: string, key: string, total: nat, i: nat, j: nat)
    requires i < j < total
    ensures PageUrls(base, key, total)[i] != PageUrls(base, key, total)[j]
  {
    var us := PageUrls(base, key, total);
    if us[i] == us[j] {
      assert us[i][|base| + |key| + 1..] == NatToString(i + 1);
      assert us[j][|base| + |key| + 1..] == NatToString(j + 1);
      NatToStringInjective(i + 1, j + 1);
    }
  }

  /** A head that `u + t` starts with lies inside `u` when `u` ends in a
      separator, since the key holds none. */
  lemma ParamHeadStable(u: string, t: string, key: string)
    requires |u| >= 2 && IsSeparator(u[|u| - 1]) && NoSeparators(key)
    ensures ParamHead(u + t, key) <==> ParamHead(u, key)
    ensures ParamHead(u, key) ==> |u| > |key| + 2
  {
    var s := u + t;
    var k := |key| + 2;
    if ParamHead(s, key) {
      assert forall j :: 1 <= j < k ==> s[j] == (key + "=")[j - 1];
      assert forall j :: 1 <= j < k ==> !IsSeparator(s[j]);
      assert s[|u| - 1] == u[|u| - 1];
      assert s[1..k] == u[1..k];
    }
    if ParamHead(u, key) {
      assert s[1..k] == u[1..k];
      assert u[k - 1] == '=';
    }
  }

  /** Digits that stop before a final separator end the same way whatever follows. */
  lemma ParamEndStable(u: string, t: string, k: nat)
    requires k < |u| && IsSeparator(u[|u| - 1])
    ensures ParamEnd(u + t, k) == ParamEnd(u, k)
  {
    assert (u + t)[k..] == u[k..] + t;
    DigitRunBelowEnd(u[k..]);
    DigitRunConcat(u[k..], t);
  }

  /** A match cannot run past a separator that ends `u`. */
  lemma ParamMatchStable(u: string, t: string, key: string)
    requires |u| >= 2 && IsSeparator(u[|u| - 1]) && NoSeparators(key)
    ensures ParamMatch(u + t, key) == ParamMatch(u, key)
  {
    ParamHeadStable(u, t, key);
    if ParamHead(u, key) {
      ParamEndStable(u, t, |key| + 2);
    }
  }

  lemma ParamFreeTail(b: string, key: string)
    requires |b| > 0 && ParamFree(b, key)
    ensures ParamFree(b[1..], key)
  {
    forall i | 0 <= i < |b| - 1
      ensures ParamMatch(b[1..][i..], key).None?
    {
      assert b[1..][i..] == b[i + 1..];
    }
  }

  /** One step of the scan at a position that starts no match. */
  lemma DropParamStep(s: string, key: string)
    requires |s| > 0 && ParamMatch(s, key).None?
    ensures DropParam(s, key) == [s[0]] + DropParam(s[1..], key)
  {
  }

  /** Scanning a parameter-free base `p + [c]` passes `p` through unchanged. */
  lemma {:induction false} DropParamPlainPrefix(p: string, c: char, u: string, key: string)
    requires IsSeparator(c) && ParamFree(p + [c], key) && NoSeparators(key)
    requires |u| > 0 && u[0] == c
    ensures DropParam(p + u, key) == p + DropParam(u, key)
    decreases |p|
  {
    if |p| == 0 {
      assert p + u == u;
    } else {
      assert (p + [c])[0..] == p + [c];
      PlainStep(p, c, u, key);
      ParamFreeTail(p + [c], key);
      assert (p + [c])[1..] == p[1..] + [c];
      DropParamPlainPrefix(p[1..], c, u, key);
      AppendAssoc([p[0]], p[1..], DropParam(u, key));
      assert [p[0]] + p[1..] == p;
    }
  }

  /** The first character of a parameter-free base passes through. */
  lemma PlainStep(p: string, c: char, u: string, key: string)
    requires IsSeparator(c) && ParamMatch(p + [c], key).None? && NoSeparators(key)
    requires |p| > 0 && |u| > 0 && u[0] == c
    ensures DropParam(p + u, key) == [p[0]] + DropParam(p[1..] + u, key)
  {
    var b := p + [c];
    ParamMatchStable(b, u[1..], key);
    assert u == [c] + u[1..];
    AppendAssoc(p, [c], u[1..]);
    DropParamStep(p + u, key);
    assert (p + u)[1..] == p[1..] + u;
  }

  /** Re-deriving the base from any page URL gives the base back, so the
      normalisation is stable across pages. */
  lemma PageUrlNormalizesToBase(base: string, key: string, n: nat)
    requires IsBase(base) && ParamFree(base, key) && NoSeparators(key)
    ensures BaseUrl(PageUrl(base, key, n), key) == base
  {
    var p, c := base[..|base| - 1], base[|base| - 1];
    var s := [c] + (key + "=" + NatToString(n));
    assert base == p + [c];
    assert PageUrl(base, key, n) == p + s;
    DropParamPlainPrefix(p, c, s, key);
    DropLoneParam(c, key, n);
  }

  /** A separator followed by the page parameter and nothing else leaves
      just the separator. */
  lemma DropLoneParam(c: char, key: string, n: nat)
    requires IsSeparator(c)
    ensures DropParam([c] + (key + "=" + NatToString(n)), key) == [c]
  {
    var s := [c] + (key + "=" + NatToString(n));
    assert s[1..|key| + 2] == key + "=";
    assert s[|key| + 2..] == NatToString(n) + [];
    DigitRunWhole(NatToString(n), []);
    assert ParamEnd(s, |key| + 2) == Some(|s|);
    assert s[|s|..] == [];
  }

  /** A separator appended to text without a match creates none. */
  lemma ParamMatchAppendSeparator(u: string, c: char, key: string)
    requires IsSeparator(c) && ParamMatch(u, key).None?
    ensures ParamMatch(u + [c], key).None?
  {
    var s := u + [c];
    var k := |key| + 2;
    if |s| >= k && IsSeparator(s[0]) && s[1..k] == key + "=" {
      assert s[k - 1] == '=';
      assert u[1..k] == s[1..k];
      assert s[k..] == u[k..] + [c];
      if DigitRun(u[k..]) < |u[k..]| {
        DigitRunConcat(u[k..], [c]);
      } else {
        DigitRunWhole(u[k..], [c]);
      }
    }
  }

  /** Appending a separator keeps a string free of page parameters. */
  lemma ParamFreeAppendSeparator(u: string, c: char, key: string)
    requires IsSeparator(c) && ParamFree(u, key)
    ensures ParamFree(u + [c], key)
  {
    forall i | 0 <= i < |u| + 1
      ensures ParamMatch((u + [c])[i..], key).None?
    {
      assert (u + [c])[i..] == u[i..] + [c];
      if i < |u| {
        ParamMatchAppendSeparator(u[i..], c, key);
      }
    }
  }

  /** For a URL without a page parameter, every page URL built on its base
      leads back to that same base. */
  lemma BaseIsFixedAcrossPages(url: string, key: string, n: nat)
    requires ParamFree(url, key) && NoSeparators(key)
    ensures BaseUrl(PageUrl(BaseUrl(url, key), key, n), key) == BaseUrl(url, key)
  {
    DropParamIdentity(url, key);
    var base := BaseUrl(url, key);
    if base != url {
      assert base == url + [base[|base| - 1]];
      ParamFreeAppendSeparator(url, base[|base| - 1], key);
    }
    PageUrlNormalizesToBase(base, key, n);
  }

  /** The Nykaa listing pages visited after the banner click: at most the
      limit, all on the normalised base with `page_no=` appended. */
  function NykaaPageUrls(landing: string, pager: Option<string>): (r: seq<string>)
    ensures |r| <= NykaaMaxPages
    ensures forall i :: 0 <= i < |r| ==> StartsWith(r[i], BaseUrl(landing, NykaaPageKey))
  {
    var base := BaseUrl(landing, NykaaPageKey);
    var r := PageUrls(base, NykaaPageKey, NykaaPageCount(pager, NykaaMaxPages));
    assert forall i :: 0 <= i < |r| ==> r[i][..|base|] == base;
    r
  }

  /** The Flipkart search pages visited: at least one, at most the limit. */
  function FlipkartPageUrls(searchUrl: string, lastPage: Option<string>): (r: seq<string>)
    ensures 1 <= |r| <= FlipkartMaxPages
    ensures forall i :: 0 <= i < |r| ==> StartsWith(r[i], BaseUrl(searchUrl, FlipkartPageKey))
  {
    var base := BaseUrl(searchUrl, FlipkartPageKey);
    var r := PageUrls(base, FlipkartPageKey, FlipkartPageCount(FlipkartDetectedPages(lastPage), FlipkartMaxPages));
    assert forall i :: 0 <= i < |r| ==> r[i][..|base|] == base;
    r
  }
}

=== FILE: rag_query.dfy ===
/** The retrieval and formatting layer of the query processor: the context
    block built from offer records, the choice of prompt, and the three entry
    points (free-text query, summary of recent deals, listing by brand).
    The completion service is an oracle over `Prompt` values; any exception
    it raises is folded into a fixed apology. */
module RagQuery {

  import opened Results
  import opened Strings
  import opened Seqs
  import opened Offers
  import opened VectorStore
  import opened FlipkartUrl

  const NoOffersText := "No relevant offers found."
  const NoOffersMarker := "No relevant offers found"
  const Header := "Here are the relevant promotional offers:\n\n"
  const NoDealsText := "No deals are currently available to summarize."
  const QueryApology :=
    "I apologize, but I encountered an error while processing your request. Please try again later."
  const SummaryApology :=
    "I apologize, but I encountered an error while summarizing deals. Please try again later."
  const BrandApology :=
    "I apologize, but I encountered an error while retrieving offers for the specified brand. Please try again later."

  /** How many neighbours a free-text query asks the index for. */
  const QueryK: nat := 20

  function NoStoreText(brand: string): string
  {
    "No offers available in the database to search for " + brand + "."
  }

  function NoMatchText(brand: string): string
  {
    "I couldn't find any offers for " + brand + " at the moment."
  }

  /** The prompt variants; their fixed wording is not modelled. */
  datatype Prompt =
    | NoResultsPrompt(query: string)
    | OffersPrompt(context: string, query: string)
    | SummaryPrompt(context: string)
    | BrandPrompt(brand: string, context: string)

  /** The completion service: the reply text, or the exception it raised. */
  type Completion = Prompt -> Result<string>

  /** A reply and the prompt that was sent for it, if any was. */
  datatype Answer = Answer(text: string, asked: Option<Prompt>)

  /** The stripped completion, or the entry point's apology on any exception. */
  function Reply(response: Result<string>, apology: string): (r: string)
    ensures response.Failure? ==> r == apology
    ensures response.Success? ==> r == Strip(response.value)
  {
    match response
    case Success(text) => Strip(text)
    case Failure(_) => apology
  }

  // ---------------------------------------------------------------------------
  // Context formatting

  /** The brand, read with `N/A` for a missing one, is Flipkart's. */
  predicate FlipkartBrand(o: Offer)
  {
    var brand := Get(o, BrandKey, "N/A");
    Truthy(brand) && Contains(Lower(brand.text), "flipkart")
  }

  /** A link worth showing: a non-empty string other than `N/A`. */
  predicate ShowableLink(link: Value)
  {
    Truthy(link) && link.text != "N/A"
  }

  /** The link as displayed: cleaned when the brand is Flipkart's. */
  function DisplayLink(o: Offer): (r: Value)
    ensures !(FlipkartBrand(o) && ShowableLink(Get(o, LinkKey, "N/A"))) ==> r == Get(o, LinkKey, "N/A")
    ensures (FlipkartBrand(o) && ShowableLink(Get(o, LinkKey, "N/A"))
             && Contains(Get(o, LinkKey, "N/A").text, "flipkart.com")) ==> r.Str? && TrackingFree(r.text)
    ensures FlipkartBrand(o) && ShowableLink(Get(o, LinkKey, "N/A")) ==>
              r == Str(CleanFlipkartUrl(Get(o, LinkKey, "N/A").text))
  {
    var link := Get(o, LinkKey, "N/A");
    if FlipkartBrand(o) && ShowableLink(link) then Str(CleanFlipkartUrl(link.text)) else link
  }

  /** The Markdown link a shown offer link is rendered as. */
  function MarkdownLink(url: string): string
  {
    "[View Offer](" + url + ")"
  }

  function LinkLine(link: Value): string
  {
    if ShowableLink(link) then "  Link: " + MarkdownLink(link.text) + "\n\n" else "  Link: N/A\n\n"
  }

  /** The link line is a Markdown link exactly when the link is truthy and
      not `N/A`; it shows the link itself, never its text expanded. */
  lemma LinkShownIff(link: Value)
    ensures StartsWith(LinkLine(link), "  Link: [View Offer](") <==> ShowableLink(link)
    ensures ShowableLink(link) ==> EndsWith(LinkLine(link), "(" + link.text + ")\n\n")
  {
    var line := LinkLine(link);
    if ShowableLink(link) {
      assert line[..21] == "  Link: [View Offer](";
      assert line[|line| - (|link.text| + 4)..] == "(" + link.text + ")\n\n";
    } else {
      assert line[8] == 'N';
    }
  }

  /** One labelled line; a missing field reads `N/A`, a null one `None`. */
  function FieldLine(caption: string, v: Value): string
  {
    caption + Render(v) + "\n"
  }

  /** The lines shown for one offer, numbered `n`. */
  function OfferBlock(n: nat, o: Offer): string
  {
    "Offer " + NatToString(n) + ":\n"
    + FieldLine("  Title: ", Get(o, TitleKey, "N/A"))
    + OfferDetails(o)
  }

  /** Everything in a block after the title line. */
  function OfferDetails(o: Offer): string
  {
    FieldLine("  Description: ", Get(o, DescriptionKey, "N/A"))
    + FieldLine("  Brand: ", Get(o, BrandKey, "N/A"))
    + FieldLine("  Expiry Date: ", Get(o, ExpiryKey, "N/A"))
    + LinkLine(DisplayLink(o))
  }

  /** `block(first, xs[0]) + block(first + 1, xs[1]) + ...`. */
  function Numbered<T>(xs: seq<T>, first: nat, block: (nat, T) -> string): string
    decreases |xs|
  {
    if |xs| == 0 then "" else block(first, xs[0]) + Numbered(xs[1..], first + 1, block)
  }

  /** `_format_offers_for_llm`, as a definition: the sentinel for no offers,
      else the header and one block per offer numbered from 1. */
  function FormatOffers(offers: seq<Offer>): (r: string)
    ensures |offers| == 0 <==> r == NoOffersText
    ensures |offers| > 0 ==> StartsWith(r, Header)
  {
    if |offers| == 0 then NoOffersText
    else
      var body := Numbered(offers, 1, OfferBlock);
      HeaderLeads(body);
      Header + body
  }

  /** The header is a prefix of what follows it and differs from the sentinel. */
  lemma HeaderLeads(body: string)
    ensures StartsWith(Header + body, Header)
    ensures Header + body != NoOffersText
  {
    var r := Header + body;
    assert r[..|Header|] == Header;
    assert r[0] == Header[0] == 'H';
    assert NoOffersText[0] == 'N';
  }

  /** Numbering carries on across a split of the list. */
  lemma {:induction false} NumberedSplit<T>(a: seq<T>, b: seq<T>, first: nat, block: (nat, T) -> string)
    ensures Numbered(a + b, first, block) == Numbered(a, first, block) + Numbered(b, first + |a|, block)
    decreases |a|
  {
    if |a| == 0 {
      assert a + b == b;
    } else {
      assert (a + b)[0] == a[0];
      assert (a + b)[1..] == a[1..] + b;
      NumberedSplit(a[1..], b, first + 1, block);
      AppendAssoc(block(first, a[0]), Numbered(a[1..], first + 1, block), Numbered(b, first + |a|, block));
    }
  }

  /** The i-th offer appears as block number i + 1, after the blocks of the
      offers before it and before the blocks of those after it. */
  lemma BlockPosition<T>(xs: seq<T>, i: nat, block: (nat, T) -> string)
    requires i < |xs|
    ensures Numbered(xs, 1, block)
            == Numbered(xs[..i], 1, block) + block(i + 1, xs[i]) + Numbered(xs[i + 1..], i + 2, block)
  {
    var at, post := block(i + 1, xs[i]), Numbered(xs[i + 1..], i + 2, block);
    assert xs == xs[..i] + xs[i..];
    NumberedSplit(xs[..i], xs[i..], 1, block);
    assert xs[i..][1..] == xs[i + 1..];
    assert Numbered(xs[i..], i + 1, block) == at + post;
    AppendAssoc(Numbered(xs[..i], 1, block), at, post);
  }

  /** A link worth showing appears in its link line as a Markdown link. */
  lemma LinkLineShows(link: Value)
    requires ShowableLink(link)
    ensures Contains(LinkLine(link), "[View Offer](" + link.text + ")")
  {
    var pat := MarkdownLink(link.text);
    assert pat[0..][..|pat|] == pat;
    ContainsAt(pat, pat, 0);
    ContainsInConcat("  Link: ", pat, "\n\n", pat);
  }

  /** An offer's block shows its displayed link, when that is worth showing. */
  lemma LinkInBlock(n: nat, o: Offer)
    requires ShowableLink(DisplayLink(o))
    ensures Contains(OfferBlock(n, o), "[View Offer](" + DisplayLink(o).text + ")")
  {
    var pat := "[View Offer](" + DisplayLink(o).text + ")";
    var line := LinkLine(DisplayLink(o));
    LinkLineShows(DisplayLink(o));
    var fields := FieldLine("  Description: ", Get(o, DescriptionKey, "N/A"))
                  + FieldLine("  Brand: ", Get(o, BrandKey, "N/A"))
                  + FieldLine("  Expiry Date: ", Get(o, ExpiryKey, "N/A"));
    ContainsInConcat(fields, line, "", pat);
    assert fields + line + "" == OfferDetails(o);
    var title := "Offer " + NatToString(n) + ":\n" + FieldLine("  Title: ", Get(o, TitleKey, "N/A"));
    ContainsInConcat(title, OfferDetails(o), "", pat);
    assert title + OfferDetails(o) + "" == OfferBlock(n, o);
  }

  /** The context shows a Flipkart offer's link cleaned, as a Markdown link,
      whenever the cleaned link is still worth showing. */
  lemma FlipkartLinkShown(offers: seq<Offer>, i: nat)
    requires i < |offers|
    requires FlipkartBrand(offers[i]) && ShowableLink(Get(offers[i], LinkKey, "N/A"))
    requires ShowableLink(Str(CleanFlipkartUrl(Get(offers[i], LinkKey, "N/A").text)))
    ensures Contains(FormatOffers(offers),
                     "[View Offer](" + CleanFlipkartUrl(Get(offers[i], LinkKey, "N/A").text) + ")")
  {
    var pat := "[View Offer](" + CleanFlipkartUrl(Get(offers[i], LinkKey, "N/A").text) + ")";
    var block := OfferBlock(i + 1, offers[i]);
    LinkInBlock(i + 1, offers[i]);
    BlockPosition(offers, i, OfferBlock);
    var head := Numbered(offers[..i], 1, OfferBlock);
    var after := Numbered(offers[i + 1..], i + 2, OfferBlock);
    ContainsInConcat(Header + head, block, after, pat);
    AppendAssoc(Header, head + block, after);
    AppendAssoc(Header, head, block);
  }

  /** The brand `Flipkart` is Flipkart's, ignoring case. */
  lemma FlipkartBrandName(o: Offer)
    requires BrandKey in o && o[BrandKey] == Str("Flipkart")
    ensures FlipkartBrand(o)
  {
    var lower := Lower("Flipkart");
    assert lower[0] == 'f';
    assert lower == "flipkart";
    assert lower[0..][..8] == "flipkart";
    ContainsAt(lower, "flipkart", 0);
  }

  /** A Flipkart deal stored with its tracking parameters reaches the
      language model with the bare product link. */
  lemma FlipkartOfferShowsCleanLink(o: Offer, link: string, shown: string)
    requires link == "https://www.flipkart.com/p/x?pid=1&param=foo&hpid=bar"
    requires shown == "https://www.flipkart.com/p/x?pid=1"
    requires BrandKey in o && o[BrandKey] == Str("Flipkart")
    requires LinkKey in o && o[LinkKey] == Str(link)
    ensures Contains(FormatOffers([o]), "[View Offer](" + shown + ")")
  {
    FlipkartBrandName(o);
    CleanExampleLink(link, shown);
    FlipkartLinkShown([o], 0);
  }

  /** The formatting loop: start from `head` and append one numbered block
      per element. */
  method AppendBlocks<T>(head: string, xs: seq<T>, block: (nat, T) -> string) returns (r: string)
    ensures r == head + Numbered(xs, 1, block)
  {
    r := head;
    var i := 0;
    while i < |xs|
      invariant 0 <= i <= |xs|
      invariant r + Numbered(xs[i..], i + 1, block) == head + Numbered(xs, 1, block)
    {
      var next := block(i + 1, xs[i]);
      assert xs[i..][1..] == xs[i + 1..];
      AppendAssoc(r, next, Numbered(xs[i + 1..], i + 2, block));
      r := r + next;
      i := i + 1;
    }
    assert r + "" == r;
  }

  /** `_format_offers_for_llm` as written: the sentinel, or the header
      followed by the blocks the loop appends. */
  method FormatOffersForLlm(offers: seq<Offer>) returns (r: string)
    ensures r == FormatOffers(offers)
  {
    if |offers| == 0 {
      return NoOffersText;
    }
    r := AppendBlocks(Header, offers, OfferBlock);
  }

  // ---------------------------------------------------------------------------
  // Entry points

  /** `query_llm`: retrieve 20 neighbours, format them, pick the prompt by
      whether the context carries the no-offers sentence, ask once.  An
      exception from the search itself is not caught here. */
  function QueryLlm(st: Store, userQuery: string, service: EmbeddingService,
                    search: IndexSearch, llm: Completion): (r: Result<Answer>)
    ensures r.Failure? <==> SearchOffers(st, userQuery, QueryK, service, search).Failure?
    ensures r.Success? ==> r.value.asked.Some?
    ensures r.Success? ==>
              var context := FormatOffers(SearchOffers(st, userQuery, QueryK, service, search).value);
              (r.value.asked.value.NoResultsPrompt? <==> Contains(context, NoOffersMarker))
              && (r.value.asked.value.OffersPrompt? ==> r.value.asked.value.context == context)
    ensures r.Success? ==>
              (r.value.asked.value.NoResultsPrompt? || r.value.asked.value.OffersPrompt?)
              && r.value.asked.value.query == userQuery
    ensures r.Success? && llm(r.value.asked.value).Failure? ==> r.value.text == QueryApology
    ensures r.Success? && llm(r.value.asked.value).Success? ==>
              r.value.text == Strip(llm(r.value.asked.value).value)
  {
    match SearchOffers(st, userQuery, QueryK, service, search)
    case Failure(e) => Failure(e)
    case Success(found) =>
      var context := FormatOffers(found);
      var prompt := if Contains(context, NoOffersMarker) then NoResultsPrompt(userQuery)
                    else OffersPrompt(context, userQuery);
      Success(Answer(Reply(llm(prompt), QueryApology), Some(prompt)))
  }

  /** With nothing retrieved, the no-results prompt is the one sent. */
  lemma NothingFoundAsksNoResults(st: Store, userQuery: string, service: EmbeddingService,
                                  search: IndexSearch, llm: Completion)
    requires st.index.None? || |st.metadata| == 0 || GetEmbedding(service, userQuery).None?
    ensures QueryLlm(st, userQuery, service, search, llm).Success?
    ensures QueryLlm(st, userQuery, service, search, llm).value.asked == Some(NoResultsPrompt(userQuery))
  {
    ContainsAt(NoOffersText, NoOffersMarker, 0);
  }

  /** The prompt choice tests the formatted text, not the result count: an
      offer whose title holds the no-offers sentence makes a non-empty
      context read as empty. */
  lemma MarkerInTitleReadsAsEmpty(offers: seq<Offer>, i: nat)
    requires i < |offers|
    requires TitleKey in offers[i] && offers[i][TitleKey].Str?
    requires Contains(offers[i][TitleKey].text, NoOffersMarker)
    ensures Contains(FormatOffers(offers), NoOffersMarker)
  {
    var o := offers[i];
    var title := o[TitleKey].text;
    BlockPosition(offers, i, OfferBlock);
    var line := FieldLine("  Title: ", Get(o, TitleKey, "N/A"));
    assert line == "  Title: " + title + "\n";
    ContainsInConcat("  Title: ", title, "\n", NoOffersMarker);
    var head := "Offer " + NatToString(i + 1) + ":\n";
    ContainsInConcat(head, line, OfferDetails(o), NoOffersMarker);
    var before := Numbered(offers[..i], 1, OfferBlock);
    var after := Numbered(offers[i + 1..], i + 2, OfferBlock);
    ContainsInConcat(before, OfferBlock(i + 1, o), after, NoOffersMarker);
    ContainsInConcat(Header, Numbered(offers, 1, OfferBlock), "", NoOffersMarker);
    assert Header + Numbered(offers, 1, OfferBlock) + "" == FormatOffers(offers);
  }

  /** `all_offers[-k:]`, taken only when the store is longer than `k`. */
  function RecentOffers(metadata: seq<Offer>, k: int): (r: seq<Offer>)
    ensures 0 < k ==> r == metadata[|metadata| - Min(k, |metadata|)..]
    ensures k == 0 ==> r == metadata
    ensures k < 0 ==> r == metadata[Min(-k, |metadata|)..]
  {
    if |metadata| > k then
      var start := -k;
      if start < 0 then metadata[|metadata| + start..] else metadata[Min(start, |metadata|)..]
    else metadata
  }

  /** For k >= 0 the selection is a non-empty suffix exactly when the store
      is non-empty; it holds the last k records, or all of them when k is 0
      or at least the store size. */
  lemma RecentOffersSize(metadata: seq<Offer>, k: int)
    requires k >= 0
    ensures |RecentOffers(metadata, k)| == (if k == 0 || k >= |metadata| then |metadata| else k)
    ensures |RecentOffers(metadata, k)| == 0 <==> |metadata| == 0
  {
  }

  /** `summarize_top_deals`. */
  function SummarizeTopDeals(metadata: seq<Offer>, k: int, llm: Completion): (r: Answer)
    ensures r.asked.None? <==> |RecentOffers(metadata, k)| == 0
    ensures r.asked.None? ==> r.text == NoDealsText
    ensures r.asked.Some? ==> r.asked.value == SummaryPrompt(FormatOffers(RecentOffers(metadata, k)))
    ensures r.asked.Some? && llm(r.asked.value).Failure? ==> r.text == SummaryApology
    ensures r.asked.Some? && llm(r.asked.value).Success? ==> r.text == Strip(llm(r.asked.value).value)
  {
    var chosen := RecentOffers(metadata, k);
    if |chosen| == 0 then Answer(NoDealsText, None)
    else
      var prompt := SummaryPrompt(FormatOffers(chosen));
      Answer(Reply(llm(prompt), SummaryApology), Some(prompt))
  }

  /** An empty store answers with the fixed sentence and never calls the
      completion service, whatever it would have said. */
  lemma EmptyStoreSummary(k: int, llm1: Completion, llm2: Completion)
    ensures SummarizeTopDeals([], k, llm1) == SummarizeTopDeals([], k, llm2) == Answer(NoDealsText, None)
  {
  }

  /** A record the brand listing can read: `brand_name` missing or a string
      (a stored `None` would make `.lower()` raise). */
  predicate BrandIsText(o: Offer)
  {
    BrandKey !in o || o[BrandKey].Str?
  }

  predicate SameBrand(o: Offer, brand: string)
    requires BrandIsText(o)
  {
    Lower(Get(o, BrandKey, "").text) == Lower(brand)
  }

  /** The records whose brand equals `brand` ignoring case, in store order. */
  function BrandMatches(metadata: seq<Offer>, brand: string): (r: seq<Offer>)
    requires forall o :: o in metadata ==> BrandIsText(o)
    ensures |r| <= |metadata|
    ensures forall o :: o in r <==> o in metadata && SameBrand(o, brand)
    decreases |metadata|
  {
    if |metadata| == 0 then []
    else
      var rest := BrandMatches(metadata[1..], brand);
      assert forall o :: o in metadata <==> o == metadata[0] || o in metadata[1..];
      if SameBrand(metadata[0], brand) then [metadata[0]] + rest else rest
  }

  /** Matching keeps store order: it distributes over concatenation. */
  lemma {:induction false} BrandMatchesSplit(a: seq<Offer>, b: seq<Offer>, brand: string)
    requires forall o :: o in a + b ==> BrandIsText(o)
    ensures BrandMatches(a + b, brand) == BrandMatches(a, brand) + BrandMatches(b, brand)
    decreases |a|
  {
    if |a| == 0 {
      assert a + b == b;
    } else {
      assert (a + b)[0] == a[0];
      assert (a + b)[1..] == a[1..] + b;
      BrandMatchesSplit(a[1..], b, brand);
      if SameBrand(a[0], brand) {
        AppendAssoc([a[0]], BrandMatches(a[1..], brand), BrandMatches(b, brand));
      }
    }
  }

  /** Queries that agree ignoring case select the same records. */
  lemma {:induction false} BrandMatchesIgnoreCase(metadata: seq<Offer>, b1: string, b2: string)
    requires forall o :: o in metadata ==> BrandIsText(o)
    requires Lower(b1) == Lower(b2)
    ensures BrandMatches(metadata, b1) == BrandMatches(metadata, b2)
    decreases |metadata|
  {
    if |metadata| > 0 {
      BrandMatchesIgnoreCase(metadata[1..], b1, b2);
    }
  }

  /** Some record would make the brand comparison raise. */
  predicate HasNullBrand(metadata: seq<Offer>)
  {
    exists o :: o in metadata && !BrandIsText(o)
  }

  /** `list_offers_by_brand`: the fixed sentence for an empty store; the
      exception from a stored null brand, which nothing catches; the fixed
      sentence when nothing matches; otherwise one prompt over the matches. */
  function ListOffersByBrand(metadata: seq<Offer>, brand: string, llm: Completion): (r: Result<Answer>)
    ensures |metadata| == 0 ==> r == Success(Answer(NoStoreText(brand), None))
    ensures r.Failure? <==> |metadata| > 0 && HasNullBrand(metadata)
    ensures r.Success? && |metadata| > 0 ==>
              (r.value.asked.None? <==> |BrandMatches(metadata, brand)| == 0)
              && (r.value.asked.None? ==> r.value.text == NoMatchText(brand))
              && (r.value.asked.Some? ==>
                    r.value.asked.value == BrandPrompt(brand, FormatOffers(BrandMatches(metadata, brand))))
    ensures r.Success? && r.value.asked.Some? && llm(r.value.asked.value).Failure? ==>
              r.value.text == BrandApology
    ensures r.Success? && r.value.asked.Some? && llm(r.value.asked.value).Success? ==>
              r.value.text == Strip(llm(r.value.asked.value).value)
  {
    if |metadata| == 0 then Success(Answer(NoStoreText(brand), None))
    else if HasNullBrand(metadata) then Failure("'NoneType' object has no attribute 'lower'")
    else
      var matches := BrandMatches(metadata, brand);
      if |matches| == 0 then Success(Answer(NoMatchText(brand), None))
      else
        var prompt := BrandPrompt(brand, FormatOffers(matches));
        Success(Answer(Reply(llm(prompt), BrandApology), Some(prompt)))
  }
}

=== FILE: results.dfy ===
/** Failure-carrying wrappers used across the model.
    An `Option` stands for a Python value that may be `None`; a `Result`
    stands for a call that either returns or raises. */
module Results {

  datatype Option<+T> = None | Some(value: T)

  /** `Failure` carries a description of the exception that escaped. */
  datatype Result<+T> = Success(value: T) | Failure(error: string)
}

=== FILE: scan.dfy ===
/** `re.search` for a pattern described by what it matches at the front of
    a string: the match reported is the one at the leftmost position where
    the pattern matches at all. */
module Scan {

  import opened Results

  /** `f` matches at position `i` of `s` with result `r`, and at no earlier
      position. */
  ghost predicate LeftmostAt<T>(f: string -> Option<T>, s: string, i: int, r: Option<T>)
  {
    0 <= i <= |s| && f(s[i..]) == r && forall j :: 0 <= j < i ==> f(s[j..]).None?
  }

  /** A leftmost match in the tail, behind a front that does not match, is
      the leftmost match of the whole, one position further on. */
  lemma LeftmostShift<T>(f: string -> Option<T>, s: string, i: int, r: Option<T>)
    requires |s| > 0 && f(s).None? && LeftmostAt(f, s[1..], i, r)
    ensures LeftmostAt(f, s, i + 1, r)
  {
    assert s[1..][i..] == s[i + 1..];
    forall j | 0 <= j < i + 1
      ensures f(s[j..]).None?
    {
      if j == 0 {
        assert s[0..] == s;
      } else {
        assert s[1..][j - 1..] == s[j..];
      }
    }
  }

  lemma LeftmostShiftExists<T>(f: string -> Option<T>, s: string, r: Option<T>)
    requires |s| > 0 && f(s).None? && exists i :: LeftmostAt(f, s[1..], i, r)
    ensures exists i :: LeftmostAt(f, s, i, r)
  {
    var i :| LeftmostAt(f, s[1..], i, r);
    LeftmostShift(f, s, i, r);
  }

  /** The result of `f` at the leftmost position of `s` where it has one,
      the end of `s` included (a pattern may match the empty rest). */
  function Search<T>(f: string -> Option<T>, s: string): (r: Option<T>)
    ensures r.Some? <==> exists i :: 0 <= i <= |s| && f(s[i..]).Some?
    ensures r.Some? ==> exists i :: LeftmostAt(f, s, i, r)
    ensures f(s).Some? ==> r == f(s)
    decreases |s|
  {
    if f(s).Some? then
      assert s[0..] == s;
      assert LeftmostAt(f, s, 0, f(s));
      f(s)
    else if |s| == 0 then
      assert forall i :: 0 <= i <= |s| ==> s[i..] == s;
      None
    else
      var r := Search(f, s[1..]);
      assert forall i :: 1 <= i <= |s| ==> s[i..] == s[1..][i - 1..];
      assert s[0..] == s;
      if r.Some? then
        LeftmostShiftExists(f, s, r);
        r
      else r
  }
}

=== FILE: scrape_helpers.dfy ===
/** Two small pure helpers of the scraper: padding the parallel lists of
    scraped page elements to a common length, and guessing a brand from a
    URL for the generic scraping path. */
module ScrapeHelpers {

  import opened Results
  import opened Strings
  import opened Seqs
  import opened Scan

  // ---------------------------------------------------------------------------
  // pad_list

  /** `lst + [None] * (length - len(lst))`; a negative repeat count gives
      nothing, so a list longer than `length` comes back whole. */
  function PadList<T>(lst: seq<T>, length: int): (r: seq<Option<T>>)
    ensures |r| == Max(|lst|, length)
    ensures forall i :: 0 <= i < |lst| ==> r[i] == Some(lst[i])
    ensures forall i :: |lst| <= i < |r| ==> r[i] == None
  {
    var fill := if length > |lst| then length - |lst| else 0;
    seq(|lst|, i requires 0 <= i < |lst| => Some(lst[i])) + seq(fill, _ => None)
  }

  /** The present elements, in order. */
  function Present<T>(xs: seq<Option<T>>): seq<T>
    decreases |xs|
  {
    if |xs| == 0 then []
    else if xs[0].Some? then [xs[0].value] + Present(xs[1..])
    else Present(xs[1..])
  }

  /** Padding only adds placeholders: dropping them gives the list back. */
  lemma {:induction false} PadListPresent<T>(lst: seq<T>, length: int)
    ensures Present(PadList(lst, length)) == lst
    decreases |lst|
  {
    var r := PadList(lst, length);
    if |lst| == 0 {
      NonePresent(r);
    } else {
      PadList1(lst, length);
      PadListPresent(lst[1..], length - 1);
    }
  }

  lemma PadList1<T>(lst: seq<T>, length: int)
    requires |lst| > 0
    ensures PadList(lst, length)[1..] == PadList(lst[1..], length - 1)
  {
  }

  lemma {:induction false} NonePresent<T>(xs: seq<Option<T>>)
    requires forall i :: 0 <= i < |xs| ==> xs[i].None?
    ensures Present(xs) == []
    decreases |xs|
  {
    if |xs| > 0 {
      NonePresent(xs[1..]);
    }
  }

  /** The longest of the columns (0 for none). */
  function MaxLen<T>(cols: seq<seq<T>>): (m: nat)
    ensures forall i :: 0 <= i < |cols| ==> |cols[i]| <= m
    ensures |cols| > 0 ==> exists i :: 0 <= i < |cols| && |cols[i]| == m
    ensures |cols| == 0 ==> m == 0
    decreases |cols|
  {
    if |cols| == 0 then 0
    else
      var rest := MaxLen(cols[1..]);
      assert forall i :: 1 <= i < |cols| ==> cols[i] == cols[1..][i - 1];
      if |cols[0]| >= rest then |cols[0]| else rest
  }

  /** Every column padded to the longest one's length, so that the i-th
      entries of all columns describe the same product. */
  function PadColumns<T>(cols: seq<seq<T>>): (r: seq<seq<Option<T>>>)
    ensures |r| == |cols|
    ensures forall i :: 0 <= i < |r| ==> |r[i]| == MaxLen(cols)
    ensures forall i :: 0 <= i < |r| ==> Present(r[i]) == cols[i]
  {
    var m := MaxLen(cols);
    var r := seq(|cols|, i requires 0 <= i < |cols| => PadList(cols[i], m));
    assert forall i :: 0 <= i < |r| ==> Present(r[i]) == cols[i] by {
      forall i | 0 <= i < |r| {
        PadListPresent(cols[i], m);
      }
    }
    r
  }

  // ---------------------------------------------------------------------------
  // _extract_brand_from_url

  const UnknownBrand := "Unknown Brand"

  /** `[a-zA-Z0-9-]`. */
  predicate IsLabelChar(c: char)
  {
    IsAsciiLower(c) || IsAsciiUpper(c) || IsAsciiDigit(c) || c == '-'
  }

  /** A non-empty run of label characters. */
  predicate IsLabel(s: string)
  {
    |s| > 0 && forall i :: 0 <= i < |s| ==> IsLabelChar(s[i])
  }

  /** Length of the run of label characters at the front of `s`. */
  function LabelRun(s: string): (n: nat)
    ensures n <= |s|
    ensures forall i :: 0 <= i < n ==> IsLabelChar(s[i])
    ensures n < |s| ==> !IsLabelChar(s[n])
    decreases |s|
  {
    if |s| == 0 || !IsLabelChar(s[0]) then 0 else 1 + LabelRun(s[1..])
  }

  /** `([a-zA-Z0-9-]+)\.com` at the front of `s`.  The run is greedy and
      cannot give characters back usefully, since `.` is not a label
      character: the match is the whole run, and only if `.com` follows. */
  function LabelAt(s: string): (r: Option<string>)
    ensures r.Some? ==> IsLabel(r.value) && StartsWith(s, r.value + ".com")
  {
    var n := LabelRun(s);
    if n > 0 && StartsWith(s[n..], ".com") then
      assert s[..n + 4] == s[..n] + s[n..][..4];
      Some(s[..n])
    else None
  }

  /** `(?:www\.)?` before the label: taken if it leads to a match, else skipped. */
  function AfterWww(s: string): (r: Option<string>)
    ensures r.Some? ==> IsLabel(r.value)
  {
    if StartsWith(s, "www.") && LabelAt(s[4..]).Some? then LabelAt(s[4..]) else LabelAt(s)
  }

  /** The whole pattern at the front of `s`: `https://`, then `http://`,
      then no scheme, each tried in that order. */
  function BrandAt(s: string): (r: Option<string>)
    ensures r.Some? ==> IsLabel(r.value)
  {
    if StartsWith(s, "https://") && AfterWww(s[8..]).Some? then AfterWww(s[8..])
    else if StartsWith(s, "http://") && AfterWww(s[7..]).Some? then AfterWww(s[7..])
    else AfterWww(s)
  }

  /** `re.search`: the label captured at the leftmost position where the
      pattern matches. */
  function FindBrand(s: string): (r: Option<string>)
    ensures r.Some? <==> exists i :: 0 <= i <= |s| && BrandAt(s[i..]).Some?
    ensures r.Some? ==> exists i :: LeftmostAt(BrandAt, s, i, r)
    ensures r.Some? ==> IsLabel(r.value)
  {
    Search(BrandAt, s)
  }

  /** `_extract_brand_from_url`. */
  function ExtractBrandFromUrl(url: string): (r: string)
    ensures r == UnknownBrand <==> FindBrand(url).None?
    ensures FindBrand(url).Some? ==> IsLabel(r) && |r| == |FindBrand(url).value|
    ensures FindBrand(url).Some? ==>
              var name := FindBrand(url).value;
              r[0] == UpperChar(name[0]) && forall i :: 1 <= i < |name| ==> r[i] == LowerChar(name[i])
  {
    match FindBrand(url)
    case Some(name) =>
      CapitalizedLabel(name);
      Capitalize(name)
    case None => UnknownBrand
  }

  /** A label character directly followed by `.com` at position `i`. */
  predicate DotComAfterLabel(s: string, i: int)
  {
    1 <= i <= |s| && IsLabelChar(s[i - 1]) && StartsWith(s[i..], ".com")
  }

  lemma LabelAtGivesBrand(s: string)
    requires LabelAt(s).Some?
    ensures BrandAt(s).Some?
  {
  }

  /** A witness in a suffix is a witness in the whole string. */
  lemma DotComShift(s: string, k: nat, i: int)
    requires k <= |s| && DotComAfterLabel(s[k..], i)
    ensures DotComAfterLabel(s, k + i)
  {
    assert s[k..][i - 1] == s[k + i - 1];
    assert s[k..][i..] == s[k + i..];
  }

  lemma LabelAtShape(u: string)
    requires LabelAt(u).Some?
    ensures DotComAfterLabel(u, LabelRun(u))
  {
  }

  lemma AfterWwwShape(t: string)
    requires AfterWww(t).Some?
    ensures exists i :: DotComAfterLabel(t, i)
  {
    if StartsWith(t, "www.") && LabelAt(t[4..]).Some? {
      LabelAtShape(t[4..]);
      DotComShift(t, 4, LabelRun(t[4..]));
    } else {
      LabelAtShape(t);
    }
  }

  /** Every match ends in a label character followed by `.com`. */
  lemma BrandAtShape(s: string)
    requires BrandAt(s).Some?
    ensures exists i :: DotComAfterLabel(s, i)
  {
    var k := if StartsWith(s, "https://") && AfterWww(s[8..]).Some? then 8
             else if StartsWith(s, "http://") && AfterWww(s[7..]).Some? then 7
             else 0;
    assert s[0..] == s;
    AfterWwwShape(s[k..]);
    var i :| DotComAfterLabel(s[k..], i);
    DotComShift(s, k, i);
  }

  /** Capitalising a label keeps it a label, so it never reads as the fallback. */
  lemma CapitalizedLabel(name: string)
    requires IsLabel(name)
    ensures IsLabel(Capitalize(name))
    ensures Capitalize(name) != UnknownBrand
  {
    var r := Capitalize(name);
    assert forall i :: 1 <= i < |name| ==> r[i] == LowerChar(name[i]);
    assert |UnknownBrand| == 13 && !IsLabelChar(UnknownBrand[7]);
  }

  /** Wherever the search matches, a label character is followed by `.com`. */
  lemma FindBrandShape(url: string)
    requires FindBrand(url).Some?
    ensures exists i :: DotComAfterLabel(url, i)
  {
    var p :| 0 <= p <= |url| && BrandAt(url[p..]).Some?;
    BrandAtShape(url[p..]);
    var i :| DotComAfterLabel(url[p..], i);
    DotComShift(url, p, i);
  }

  /** The fallback is returned exactly when no label character is directly
      followed by `.com`; in particular, always when `.com` does not occur. */
  lemma UnknownBrandIff(url: string)
    ensures ExtractBrandFromUrl(url) == UnknownBrand <==> !exists i :: DotComAfterLabel(url, i)
    ensures !Contains(url, ".com") ==> ExtractBrandFromUrl(url) == UnknownBrand
  {
    if exists i :: DotComAfterLabel(url, i) {
      var i :| DotComAfterLabel(url, i);
      var u := url[i - 1..];
      assert LabelAt(u).Some? by {
        assert u[1..] == url[i..];
        assert url[i..][..4] == ".com";
        assert u[1] == url[i] == '.';
        assert LabelRun(u) == 1;
      }
      LabelAtGivesBrand(url[i - 1..]);
      CapitalizedLabel(FindBrand(url).value);
      ContainsAt(url, ".com", i);
    } else if FindBrand(url).Some? {
      FindBrandShape(url);
    }
  }

  /** A label followed by a non-label character is read in full. */
  lemma {:induction false} LabelRunWhole(a: string, b: string)
    requires forall i :: 0 <= i < |a| ==> IsLabelChar(a[i])
    requires b == [] || !IsLabelChar(b[0])
    ensures LabelRun(a + b) == |a|
    decreases |a|
  {
    if |a| > 0 {
      assert (a + b)[1..] == a[1..] + b;
      LabelRunWhole(a[1..], b);
    } else {
      assert a + b == b;
    }
  }

  /** The usual shop URL gives its second-level name, capitalised. */
  lemma ShopUrlBrand(name: string, rest: string)
    requires IsLabel(name)
    ensures ExtractBrandFromUrl("https://" + ("www." + (name + (".com" + rest)))) == Capitalize(name)
  {
    var tail := ".com" + rest;
    var host := "www." + (name + tail);
    var url := "https://" + host;
    assert LabelAt(name + tail) == Some(name) by {
      LabelRunWhole(name, tail);
      DropPrefix(name, tail);
      assert (name + tail)[..|name|] == name;
      assert StartsWith(tail, ".com");
    }
    assert AfterWww(host) == Some(name) by {
      DropPrefix("www.", name + tail);
      assert StartsWith(host, "www.");
    }
    assert BrandAt(url) == Some(name) by {
      DropPrefix("https://", host);
      assert StartsWith(url, "https://");
    }
  }
}

=== FILE: seqs.dfy ===
/** Small facts about integers and sequences shared by the other modules. */
module Seqs {

  function Min(a: int, b: int): int
  {
    if a <= b then a else b
  }

  function Max(a: int, b: int): int
  {
    if a >= b then a else b
  }

  lemma AppendAssoc<T>(x: seq<T>, y: seq<T>, z: seq<T>)
    ensures (x + y) + z == x + (y + z)
  {
  }

  lemma DropPrefix<T>(a: seq<T>, b: seq<T>)
    ensures (a + b)[|a|..] == b
  {
  }

  /** Two sequences with the same first element are equal exactly when their
      tails are. */
  lemma ConsEqual<T>(c: T, x: seq<T>, y: seq<T>)
    ensures [c] + x == [c] + y <==> x == y
  {
    assert ([c] + x)[1..] == x && ([c] + y)[1..] == y;
  }
}

=== FILE: strings.dfy ===
/** The handful of Python string operations the model needs, on `seq<char>`.
    Case mapping and digit classes follow ASCII; `Strip` follows the
    whitespace set that `str.strip()` uses. */
module Strings {

  predicate StartsWith(s: string, prefix: string)
  {
    |prefix| <= |s| && s[..|prefix|] == prefix
  }

  predicate EndsWith(s: string, suffix: string)
  {
    |suffix| <= |s| && s[|s| - |suffix|..] == suffix
  }

  /** A prefix that starts with `c` is `c` at the front and the rest after it. */
  lemma StartsWithCons(s: string, c: char, prefix: string)
    ensures StartsWith(s, [c] + prefix) <==> |s| > 0 && s[0] == c && StartsWith(s[1..], prefix)
  {
    if |s| > 0 && |prefix| + 1 <= |s| {
      assert s[..|prefix| + 1] == [s[0]] + s[1..][..|prefix|];
    }
  }

  /** A prefix found in the front of `b` is a prefix of `b` itself. */
  lemma StartsWithExtend(a: string, b: string, prefix: string)
    requires |a| <= |b| && a == b[..|a|]
    ensures StartsWith(a, prefix) ==> StartsWith(b, prefix)
  {
    if StartsWith(a, prefix) {
      assert b[..|prefix|] == a[..|prefix|];
    }
  }

  /** Python's `pat in s`. */
  predicate Contains(s: string, pat: string)
  {
    exists i :: 0 <= i <= |s| && StartsWith(s[i..], pat)
  }

  lemma ContainsAt(s: string, pat: string, i: nat)
    requires i <= |s| && StartsWith(s[i..], pat)
    ensures Contains(s, pat)
  {
  }

  /** A pattern longer than the text cannot occur in it. */
  lemma TooLongNotContained(s: string, pat: string)
    requires |s| < |pat|
    ensures !Contains(s, pat)
  {
  }

  /** An occurrence inside a part is an occurrence in the whole. */
  lemma ContainsInConcat(a: string, b: string, c: string, pat: string)
    requires Contains(b, pat)
    ensures Contains(a + b + c, pat)
  {
    var i :| 0 <= i <= |b| && StartsWith(b[i..], pat);
    assert (a + b + c)[|a| + i..][..|pat|] == b[i..][..|pat|];
  }

  // ---------------------------------------------------------------------------
  // Character classes

  predicate IsAsciiDigit(c: char) { '0' <= c <= '9' }

  predicate IsAsciiUpper(c: char) { 'A' <= c <= 'Z' }

  predicate IsAsciiLower(c: char) { 'a' <= c <= 'z' }

  /** The characters `str.strip()` removes when called without arguments. */
  predicate IsSpace(c: char)
  {
    c == ' ' || ('\t' <= c <= '\r') || ('\U{1c}' <= c <= '\U{1f}')
    || c == '\U{85}' || c == '\U{a0}' || c == '\U{1680}'
    || ('\U{2000}' <= c <= '\U{200a}') || c == '\U{2028}' || c == '\U{2029}'
    || c == '\U{202f}' || c == '\U{205f}' || c == '\U{3000}'
  }

  function LowerChar(c: char): char
  {
    if IsAsciiUpper(c) then (c as int + 32) as char else c
  }

  function UpperChar(c: char): char
  {
    if IsAsciiLower(c) then (c as int - 32) as char else c
  }

  /** `str.lower()`. */
  function Lower(s: string): (r: string)
    ensures |r| == |s|
    ensures forall i :: 0 <= i < |s| ==> r[i] == LowerChar(s[i])
  {
    seq(|s|, i requires 0 <= i < |s| => LowerChar(s[i]))
  }

  /** `str.capitalize()`: first character upper case, the rest lower case. */
  function Capitalize(s: string): (r: string)
    ensures |r| == |s|
    ensures |s| > 0 ==> r[0] == UpperChar(s[0])
    ensures forall i :: 1 <= i < |s| ==> r[i] == LowerChar(s[i])
  {
    if |s| == 0 then "" else [UpperChar(s[0])] + Lower(s[1..])
  }

  // ---------------------------------------------------------------------------
  // Stripping

  function TrimStart(s: string): (r: string)
    ensures |r| <= |s| && r == s[|s| - |r|..]
    ensures r == [] || !IsSpace(r[0])
    ensures forall i :: 0 <= i < |s| - |r| ==> IsSpace(s[i])
  {
    if |s| > 0 && IsSpace(s[0]) then TrimStart(s[1..]) else s
  }

  function TrimEnd(s: string): (r: string)
    ensures |r| <= |s| && r == s[..|r|]
    ensures r == [] || !IsSpace(r[|r| - 1])
    ensures forall i :: |r| <= i < |s| ==> IsSpace(s[i])
  {
    if |s| > 0 && IsSpace(s[|s| - 1]) then TrimEnd(s[..|s| - 1]) else s
  }

  /** `str.strip()`: the slice of `s` left after removing whitespace from
      both ends.  It neither starts nor ends with whitespace, and is empty
      only when `s` is all whitespace. */
  function Strip(s: string): (r: string)
    ensures |r| <= |s|
    ensures r == [] || (!IsSpace(r[0]) && !IsSpace(r[|r| - 1]))
    ensures exists lo :: StrippedAt(s, r, lo)
  {
    var t := TrimStart(s);
    TrimBothEnds(s, t, TrimEnd(t));
    TrimEnd(t)
  }

  /** Removing whitespace from the front and then from the back leaves a
      slice with nothing but whitespace around it. */
  lemma TrimBothEnds(s: string, t: string, r: string)
    requires |t| <= |s| && t == s[|s| - |t|..]
    requires forall i :: 0 <= i < |s| - |t| ==> IsSpace(s[i])
    requires |r| <= |t| && r == t[..|r|]
    requires forall i :: |r| <= i < |t| ==> IsSpace(t[i])
    ensures StrippedAt(s, r, |s| - |t|)
  {
    var lo := |s| - |t|;
    assert s[lo..lo + |r|] == r;
    forall k | lo + |r| <= k < |s|
      ensures IsSpace(s[k])
    {
      assert s[k] == t[k - lo];
    }
  }

  /** `part` is `s[lo..lo + |part|]` and everything around it is whitespace. */
  predicate StrippedAt(s: string, part: string, lo: int)
  {
    SliceAt(s, part, lo)
    && (forall k :: 0 <= k < lo ==> IsSpace(s[k]))
    && (forall k :: lo + |part| <= k < |s| ==> IsSpace(s[k]))
  }

  /** `part` occupies `s[lo..lo + |part|]`. */
  predicate SliceAt(s: string, part: string, lo: int)
  {
    0 <= lo && lo + |part| <= |s| && s[lo..lo + |part|] == part
  }

  /** `r` is `s` without its trailing run of `c`: a prefix of `s` that does
      not end in `c`, followed in `s` by nothing but `c`.  At most one `r`
      fits. */
  predicate RStripped(s: string, r: string, c: char)
  {
    |r| <= |s| && r == s[..|r|]
    && (r == [] || r[|r| - 1] != c)
    && forall i :: |r| <= i < |s| ==> s[i] == c
  }

  /** The stripped text is determined by `s` and `c`. */
  lemma RStrippedUnique(s: string, r1: string, r2: string, c: char)
    requires RStripped(s, r1, c) && RStripped(s, r2, c)
    ensures r1 == r2
  {
  }

  /** `s.rstrip(c)` for a single character `c`: the trailing run of `c` is
      removed and nothing else. */
  function RStripChar(s: string, c: char): (r: string)
    ensures RStripped(s, r, c)
  {
    if |s| > 0 && s[|s| - 1] == c then RStripChar(s[..|s| - 1], c) else s
  }

  /** Ending with a one-character string is having it as the last character. */
  lemma EndsWithChar(s: string, c: char)
    ensures EndsWith(s, [c]) <==> |s| > 0 && s[|s| - 1] == c
  {
    if |s| > 0 {
      assert s[|s| - 1..] == [s[|s| - 1]];
    }
  }

  /** One trailing `c` is dropped and the strip goes on. */
  lemma RStripCharStep(s: string, c: char)
    requires |s| > 0 && s[|s| - 1] == c
    ensures RStripChar(s, c) == RStripChar(s[..|s| - 1], c)
  {
  }

  /** Without a trailing `c` there is nothing to strip. */
  lemma RStripCharStop(s: string, c: char)
    requires |s| == 0 || s[|s| - 1] != c
    ensures RStripChar(s, c) == s
  {
  }

  // ---------------------------------------------------------------------------
  // Replacement

  /** `s.replace(pat, rep)`: every non-overlapping occurrence of `pat`,
      scanned from the left, is replaced by `rep`. */
  function Replace(s: string, pat: string, rep: string): (r: string)
    requires |pat| > 0
    ensures !Contains(s, pat) ==> r == s
    ensures rep == [] && Contains(s, pat) ==> |r| <= |s| - |pat|
    ensures rep == [] ==> |r| <= |s|
    decreases |s|
  {
    if |s| == 0 then s
    else if StartsWith(s, pat) then
      var r := rep + Replace(s[|pat|..], pat, rep);
      assert StartsWith(s[0..], pat);
      r
    else
      var rest := Replace(s[1..], pat, rep);
      assert Contains(s[1..], pat) ==> Contains(s, pat) by {
        if Contains(s[1..], pat) {
          var i :| 0 <= i <= |s[1..]| && StartsWith(s[1..][i..], pat);
          assert s[1..][i..] == s[i + 1..];
        }
      }
      assert Contains(s, pat) ==> Contains(s[1..], pat) by {
        if Contains(s, pat) {
          var i :| 0 <= i <= |s| && StartsWith(s[i..], pat);
          assert i != 0;
          assert s[1..][i - 1..] == s[i..];
        }
      }
      [s[0]] + rest
  }

  // ---------------------------------------------------------------------------
  // Decimal numerals

  predicate AllDigits(s: string)
  {
    forall i :: 0 <= i < |s| ==> IsAsciiDigit(s[i])
  }

  function DigitChar(d: nat): (c: char)
    requires d < 10
    ensures IsAsciiDigit(c)
  {
    ('0' as int + d) as char
  }

  function DigitValue(c: char): nat
    requires IsAsciiDigit(c)
  {
    c as int - '0' as int
  }

  /** `str(n)` for a non-negative integer. */
  function NatToString(n: nat): (r: string)
    ensures |r| > 0 && AllDigits(r)
    ensures (n == 0) == (r[0] == '0')
    decreases n
  {
    if n < 10 then [DigitChar(n)] else NatToString(n / 10) + [DigitChar(n % 10)]
  }

  /** `int(s)` for a string of ASCII digits (the empty string reads as 0). */
  function ParseDecimal(s: string): nat
    requires AllDigits(s)
    decreases |s|
  {
    if |s| == 0 then 0 else ParseDecimal(s[..|s| - 1]) * 10 + DigitValue(s[|s| - 1])
  }

  /** Reading back a printed number gives the number. */
  lemma {:induction false} ParseNatToString(n: nat)
    ensures ParseDecimal(NatToString(n)) == n
    decreases n
  {
    var r := NatToString(n);
    if n < 10 {
    } else {
      ParseNatToString(n / 10);
      assert r[..|r| - 1] == NatToString(n / 10);
    }
  }

  /** Distinct numbers print differently. */
  lemma NatToStringInjective(m: nat, n: nat)
    requires NatToString(m) == NatToString(n)
    ensures m == n
  {
    ParseNatToString(m);
    ParseNatToString(n);
  }
}

=== FILE: vector_store.dfy ===
/** The vector store manager: a flat index of embedding vectors kept in
    lockstep with a list of offer records, loaded from and saved to two
    files, grown by ingestion and read by nearest-neighbour search.
    The embedding service and the index's own search are oracles. */
module VectorStore {

  import opened Results
  import opened Strings
  import opened Seqs
  import opened Offers

  /** An embedding; the float32 values are abstracted to reals. */
  type Vector = seq<real>

  /** A flat L2 index: its dimension and its vectors in insertion order. */
  datatype FlatIndex = FlatIndex(dim: nat, vectors: seq<Vector>)

  /** The manager's state: no index until the first batch, and the metadata
      list whose i-th record belongs to the i-th vector. */
  datatype Store = Store(index: Option<FlatIndex>, metadata: seq<Offer>)

  /** The two files at the base path; `None` is a missing file. */
  datatype Disk = Disk(indexFile: Option<FlatIndex>, metadataFile: Option<seq<Offer>>)

  /** The embedding service: the text sent, and either a vector or an error. */
  type EmbeddingService = string -> Result<Vector>

  const EmptyStore: Store := Store(None, [])

  /** The vectors in the index (none before the first batch). */
  function Vectors(st: Store): seq<Vector>
  {
    if st.index.Some? then st.index.value.vectors else []
  }

  /** The parallel-array invariant: one record per stored vector. */
  predicate Parallel(st: Store)
  {
    |Vectors(st)| == |st.metadata|
  }

  // ---------------------------------------------------------------------------
  // Persistence

  /** Start-up: both files present means load both, anything else means a
      fresh store.  The two lengths are not compared. */
  function LoadOrInit(disk: Disk): (r: Store)
    ensures disk.indexFile.Some? && disk.metadataFile.Some? ==>
              r.index == disk.indexFile && r.metadata == disk.metadataFile.value
    ensures disk.indexFile.None? || disk.metadataFile.None? ==> r == EmptyStore
  {
    if disk.indexFile.Some? && disk.metadataFile.Some? then
      Store(disk.indexFile, disk.metadataFile.value)
    else
      EmptyStore
  }

  /** What a save writes: the index file and the pickled metadata list. */
  function Save(st: Store): (d: Disk)
    requires st.index.Some?
    ensures d.indexFile.Some? && d.metadataFile.Some?
  {
    Disk(st.index, Some(st.metadata))
  }

  /** Reloading what was saved gives back the same store. */
  lemma SaveThenLoad(st: Store)
    requires st.index.Some?
    ensures LoadOrInit(Save(st)) == st
  {
  }

  // ---------------------------------------------------------------------------
  // Embedding

  /** Newlines become spaces before the text is sent. */
  function NormalizeNewlines(text: string): (r: string)
    ensures |r| == |text|
    ensures forall i :: 0 <= i < |r| ==> r[i] != '\n'
    ensures forall i :: 0 <= i < |r| ==> r[i] == (if text[i] == '\n' then ' ' else text[i])
  {
    seq(|text|, i requires 0 <= i < |text| => if text[i] == '\n' then ' ' else text[i])
  }

  /** `_get_embedding`: every failure of the service comes back as `None`. */
  function GetEmbedding(service: EmbeddingService, text: string): (r: Option<Vector>)
    ensures r.None? <==> service(NormalizeNewlines(text)).Failure?
    ensures r.Some? ==> r.value == service(NormalizeNewlines(text)).value
  {
    match service(NormalizeNewlines(text))
    case Success(v) => Some(v)
    case Failure(_) => None
  }

  /** Texts that differ only in newline-versus-space embed identically. */
  lemma NewlinesEmbedAsSpaces(service: EmbeddingService, a: string, b: string)
    requires |a| == |b|
    requires forall i :: 0 <= i < |a| ==> a[i] == b[i] || (a[i] in "\n " && b[i] in "\n ")
    ensures GetEmbedding(service, a) == GetEmbedding(service, b)
  {
    assert NormalizeNewlines(a) == NormalizeNewlines(b);
  }

  /** The labelled text embedded for an offer.  Missing fields render as
      empty text, a missing expiry as `N/A`, a stored `None` as `None`. */
  function EmbeddingText(o: Offer): string
  {
    LeadingFields(o) + ExpiryPart(o)
  }

  /** The embedding text opens with the `Title:` part and closes with the
      `Expiry:` part. */
  lemma EmbeddingTextFrame(o: Offer)
    ensures StartsWith(EmbeddingText(o), TitlePart(o))
    ensures EndsWith(EmbeddingText(o), ExpiryPart(o))
  {
    var r := EmbeddingText(o);
    assert r == TitlePart(o) + (LeadingFields(o)[|TitlePart(o)|..] + ExpiryPart(o));
    assert r[..|TitlePart(o)|] == TitlePart(o);
    EndsWithConcat(LeadingFields(o), ExpiryPart(o));
  }

  /** The opening `Title:` part of the embedding text. */
  function TitlePart(o: Offer): string
  {
    "Title: " + Render(Get(o, TitleKey, "")) + ". "
  }

  /** The title, description, brand and category part of the embedding text. */
  function LeadingFields(o: Offer): string
  {
    TitlePart(o)
    + ("Description: " + Render(Get(o, DescriptionKey, "")) + ". "
       + "Brand: " + Render(Get(o, BrandKey, "")) + ". "
       + "Category: " + Render(Get(o, CategoryKey, "")) + ". ")
  }

  /** Both records lack `key`, or both hold the same value under it. */
  predicate SameField(o1: Offer, o2: Offer, key: string)
  {
    (key in o1 <==> key in o2) && (key in o1 ==> o1[key] == o2[key])
  }

  /** Only the five labelled fields reach the embedding service. */
  lemma EmbeddingTextUsesFiveFields(o1: Offer, o2: Offer)
    requires forall k :: k in [TitleKey, DescriptionKey, BrandKey, CategoryKey, ExpiryKey] ==>
               SameField(o1, o2, k)
    ensures EmbeddingText(o1) == EmbeddingText(o2)
  {
    assert SameField(o1, o2, TitleKey);
    assert SameField(o1, o2, DescriptionKey);
    assert SameField(o1, o2, BrandKey);
    assert SameField(o1, o2, CategoryKey);
    assert SameField(o1, o2, ExpiryKey);
  }

  lemma EndsWithConcat(a: string, b: string)
    ensures EndsWith(a + b, b)
  {
    assert (a + b)[|a + b| - |b|..] == b;
  }

  /** The closing `Expiry:` part of the embedding text. */
  function ExpiryPart(o: Offer): string
  {
    "Expiry: " + Render(Get(o, ExpiryKey, "N/A")) + "."
  }

  /** A stored `None` expiry, as the scraper writes it, reads `Expiry: None.`;
      a missing one reads `Expiry: N/A.`. */
  lemma ExpiryRendering(o: Offer)
    ensures ExpiryKey in o && o[ExpiryKey] == Null ==> EndsWith(EmbeddingText(o), "Expiry: None.")
    ensures ExpiryKey !in o ==> EndsWith(EmbeddingText(o), "Expiry: N/A.")
  {
    EmbeddingTextFrame(o);
    ExpiryPartText(o);
  }

  /** How a null and a missing expiry read. */
  lemma ExpiryPartText(o: Offer)
    ensures ExpiryKey in o && o[ExpiryKey] == Null ==> ExpiryPart(o) == "Expiry: None."
    ensures ExpiryKey !in o ==> ExpiryPart(o) == "Expiry: N/A."
  {
  }

  /** An offer is kept when its embedding is truthy: present and non-empty. */
  predicate Embeds(service: EmbeddingService, o: Offer)
  {
    var e := GetEmbedding(service, EmbeddingText(o));
    e.Some? && |e.value| > 0
  }

  // ---------------------------------------------------------------------------
  // Ingestion

  /** The vectors and records staged by the ingestion loop. */
  datatype Batch = Batch(vectors: seq<Vector>, records: seq<Offer>)

  /** Staging, offer by offer in input order: a truthy embedding stages the
      vector and the unmodified record together, anything else skips both. */
  function Stage(offers: seq<Offer>, service: EmbeddingService): (b: Batch)
    ensures |b.vectors| == |b.records| <= |offers|
    ensures forall i :: 0 <= i < |b.records| ==>
              GetEmbedding(service, EmbeddingText(b.records[i])) == Some(b.vectors[i])
              && |b.vectors[i]| > 0
    decreases |offers|
  {
    if |offers| == 0 then Batch([], [])
    else
      var rest := Stage(offers[..|offers| - 1], service);
      var o := offers[|offers| - 1];
      assert offers == offers[..|offers| - 1] + [o];
      var e := GetEmbedding(service, EmbeddingText(o));
      if e.Some? && |e.value| > 0 then Batch(rest.vectors + [e.value], rest.records + [o])
      else rest
  }

  /** A record is staged exactly when it is one of the offers and its
      embedding is truthy. */
  lemma {:induction false} StagedIffEmbeds(offers: seq<Offer>, service: EmbeddingService)
    ensures forall o :: o in Stage(offers, service).records <==> o in offers && Embeds(service, o)
    decreases |offers|
  {
    if |offers| > 0 {
      var init := offers[..|offers| - 1];
      StagedIffEmbeds(init, service);
      assert offers == init + [offers[|offers| - 1]];
    }
  }

  /** One more offer: staged at the end when it embeds, skipped otherwise. */
  lemma StageSnoc(s: seq<Offer>, o: Offer, service: EmbeddingService)
    ensures Stage(s + [o], service)
            == if Embeds(service, o)
               then Batch(Stage(s, service).vectors + [GetEmbedding(service, EmbeddingText(o)).value],
                          Stage(s, service).records + [o])
               else Stage(s, service)
  {
    assert (s + [o])[..|s|] == s;
  }

  /** Staging distributes over concatenation: it is an in-order filter. */
  lemma {:induction false} StageConcat(a: seq<Offer>, b: seq<Offer>, service: EmbeddingService)
    ensures Stage(a + b, service).records == Stage(a, service).records + Stage(b, service).records
    ensures Stage(a + b, service).vectors == Stage(a, service).vectors + Stage(b, service).vectors
    decreases |b|
  {
    if |b| == 0 {
      assert a + b == a;
      assert Stage(b, service) == Batch([], []);
    } else {
      var b' := b[..|b| - 1];
      var o := b[|b| - 1];
      assert b == b' + [o];
      assert a + b == (a + b') + [o];
      StageConcat(a, b', service);
      StageSnoc(a + b', o, service);
      StageSnoc(b', o, service);
      var sa, sb', sab' := Stage(a, service), Stage(b', service), Stage(a + b', service);
      if Embeds(service, o) {
        var v := GetEmbedding(service, EmbeddingText(o)).value;
        AppendAssoc(sa.vectors, sb'.vectors, [v]);
        AppendAssoc(sa.records, sb'.records, [o]);
        calc {
          Stage(a + b, service);
          Stage((a + b') + [o], service);
          Batch(sab'.vectors + [v], sab'.records + [o]);
          Batch(sa.vectors + (sb'.vectors + [v]), sa.records + (sb'.records + [o]));
        }
      } else {
        calc {
          Stage(a + b, service);
          Stage((a + b') + [o], service);
          sab';
        }
      }
    }
  }

  /** The outcome of one `ingest_data` call. */
  datatype Ingest =
    | Unchanged                 // empty input or nothing embedded: nothing saved
    | Added(store: Store)       // index and metadata extended, then saved
    | Raised(error: string)     // numpy or the index refused the batch

  function After(st: Store, outcome: Ingest): Store
  {
    if outcome.Added? then outcome.store else st
  }

  /** Whether the call wrote both files. */
  predicate Saved(outcome: Ingest)
  {
    outcome.Added?
  }

  predicate Uniform(vectors: seq<Vector>, d: nat)
  {
    forall i :: 0 <= i < |vectors| ==> |vectors[i]| == d
  }

  /** The dimension the batch must have: the index's, or that of the first
      staged vector when there is no index yet. */
  function TargetDim(st: Store, b: Batch): nat
    requires |b.vectors| > 0
  {
    if st.index.Some? then st.index.value.dim else |b.vectors[0]|
  }

  /** After staging: nothing staged leaves the store alone; a ragged batch or
      a dimension other than the index's raises before anything changes;
      otherwise the vectors are added and then the records appended. */
  function Commit(st: Store, b: Batch): (r: Ingest)
    requires |b.vectors| == |b.records|
    ensures |b.vectors| == 0 ==> r == Unchanged
    ensures r.Added? <==> |b.vectors| > 0 && Uniform(b.vectors, TargetDim(st, b))
    ensures r.Raised? <==> |b.vectors| > 0 && !Uniform(b.vectors, TargetDim(st, b))
    ensures r.Added? ==> r.store.metadata == st.metadata + b.records
    ensures r.Added? ==> r.store.index.Some? && Vectors(r.store) == Vectors(st) + b.vectors
    ensures r.Added? ==> r.store.index.value.dim == TargetDim(st, b)
  {
    if |b.vectors| == 0 then Unchanged
    else
      var first := |b.vectors[0]|;
      if !Uniform(b.vectors, first) then
        Raised("setting an array element with a sequence: inhomogeneous shape")
      else
        var idx := if st.index.Some? then st.index.value else FlatIndex(first, []);
        if first != idx.dim then
          Raised("vector dimension does not match the index dimension")
        else
          Added(Store(Some(FlatIndex(idx.dim, idx.vectors + b.vectors)), st.metadata + b.records))
  }

  /** `ingest_data` as a whole. */
  function IngestOffers(st: Store, offers: seq<Offer>, service: EmbeddingService): Ingest
  {
    if |offers| == 0 then Unchanged else Commit(st, Stage(offers, service))
  }

  /** The ingestion loop as the source writes it: two lists grown side by side. */
  method IngestData(st: Store, offers: seq<Offer>, service: EmbeddingService) returns (r: Ingest)
    ensures r == IngestOffers(st, offers, service)
    ensures |offers| == 0 ==> r == Unchanged
    ensures r.Added? ==> |r.store.metadata| - |st.metadata| == |r.store.index.value.vectors| - |Vectors(st)|
  {
    if |offers| == 0 {
      return Unchanged;
    }
    var newEmbeddings, newMetadata := StageLoop(offers, service);
    r := Commit(st, Batch(newEmbeddings, newMetadata));
  }

  /** The loop of `ingest_data` that fills the two staging lists in step. */
  method StageLoop(offers: seq<Offer>, service: EmbeddingService)
    returns (newEmbeddings: seq<Vector>, newMetadata: seq<Offer>)
    ensures Batch(newEmbeddings, newMetadata) == Stage(offers, service)
  {
    newEmbeddings := [];
    newMetadata := [];
    var i := 0;
    while i < |offers|
      invariant 0 <= i <= |offers|
      invariant Batch(newEmbeddings, newMetadata) == Stage(offers[..i], service)
    {
      ghost var staged := Stage(offers[..i], service);
      assert offers[..i + 1] == offers[..i] + [offers[i]];
      StageSnoc(offers[..i], offers[i], service);
      var embedding := GetEmbedding(service, EmbeddingText(offers[i]));
      if embedding.Some? && |embedding.value| > 0 {
        assert Embeds(service, offers[i]);
        newEmbeddings := newEmbeddings + [embedding.value];
        newMetadata := newMetadata + [offers[i]];
        assert Batch(newEmbeddings, newMetadata)
               == Batch(staged.vectors + [embedding.value], staged.records + [offers[i]]);
      } else {
        assert !Embeds(service, offers[i]);
      }
      i := i + 1;
    }
    assert offers[..i] == offers;
  }

  /** Ingestion keeps the index and the metadata the same length, and what
      grows them is exactly the staged batch. */
  lemma IngestPreservesParallel(st: Store, offers: seq<Offer>, service: EmbeddingService)
    requires Parallel(st)
    ensures Parallel(After(st, IngestOffers(st, offers, service)))
    ensures |After(st, IngestOffers(st, offers, service)).metadata| - |st.metadata|
            == (if IngestOffers(st, offers, service).Added? then |Stage(offers, service).records| else 0)
  {
  }

  /** Ingestion only appends: existing vectors and records keep their places. */
  lemma IngestAppendsOnly(st: Store, offers: seq<Offer>, service: EmbeddingService)
    ensures var st' := After(st, IngestOffers(st, offers, service));
            && st'.metadata[..|st.metadata|] == st.metadata
            && Vectors(st')[..|Vectors(st)|] == Vectors(st)
    ensures !Saved(IngestOffers(st, offers, service)) ==> After(st, IngestOffers(st, offers, service)) == st
  {
  }

  /** There is no de-duplication: a batch that was added once is added again,
      so the store holds it twice. */
  lemma IngestTwiceDuplicates(st: Store, offers: seq<Offer>, service: EmbeddingService)
    requires IngestOffers(st, offers, service).Added?
    ensures var st1 := After(st, IngestOffers(st, offers, service));
            var r2 := IngestOffers(st1, offers, service);
            var recs := Stage(offers, service).records;
            && r2.Added?
            && r2.store.metadata == st.metadata + recs + recs
  {
    var b := Stage(offers, service);
    var st1 := After(st, IngestOffers(st, offers, service));
    assert TargetDim(st1, b) == TargetDim(st, b);
  }

  // ---------------------------------------------------------------------------
  // Search

  /** Labels the index returns: positions, with `-1` padding. */
  type Labels = s: seq<int> | forall i :: 0 <= i < |s| ==> s[i] >= -1

  /** The index's k-nearest search, as an oracle. */
  type IndexSearch = (FlatIndex, Vector, nat) -> Labels

  /** What a flat index of `n` vectors returns for `k`: `min(k, n)` valid
      positions and then `-1` for the rest. */
  predicate FlatIndexLabels(labels: Labels, n: nat, k: nat)
  {
    && |labels| == k
    && (forall i :: 0 <= i < k && i < n ==> 0 <= labels[i] < n)
    && (forall i :: n <= i < k ==> labels[i] == -1)
  }

  /** Python list indexing by a label: `-1` counts from the end. */
  function PyIndex(idx: int, len: nat): nat
    requires -1 <= idx < len && len > 0
  {
    if idx >= 0 then idx else len + idx
  }

  /** Mapping labels back to records: a label below the metadata length is
      looked up, anything else is dropped. */
  function ResolveLabels(labels: Labels, metadata: seq<Offer>): (r: seq<Offer>)
    requires |metadata| > 0
    ensures |r| <= |labels|
    ensures forall x :: x in r ==> x in metadata
    decreases |labels|
  {
    if |labels| == 0 then []
    else
      var rest := ResolveLabels(labels[1..], metadata);
      if labels[0] < |metadata| then [metadata[PyIndex(labels[0], |metadata|)]] + rest
      else rest
  }

  /** When every label is in range, each one yields exactly one record, in order. */
  lemma {:induction false} ResolveInRange(labels: Labels, metadata: seq<Offer>)
    requires |metadata| > 0
    requires forall i :: 0 <= i < |labels| ==> labels[i] < |metadata|
    ensures |ResolveLabels(labels, metadata)| == |labels|
    ensures forall i :: 0 <= i < |labels| ==>
              ResolveLabels(labels, metadata)[i] == metadata[PyIndex(labels[i], |metadata|)]
    decreases |labels|
  {
    if |labels| > 0 {
      ResolveInRange(labels[1..], metadata);
    }
  }

  /** Labels at or past the metadata length are dropped. */
  lemma {:induction false} ResolveDropsStale(labels: Labels, metadata: seq<Offer>)
    requires |metadata| > 0
    requires forall i :: 0 <= i < |labels| ==> labels[i] >= |metadata|
    ensures ResolveLabels(labels, metadata) == []
    decreases |labels|
  {
    if |labels| > 0 {
      ResolveDropsStale(labels[1..], metadata);
    }
  }

  /** With the invariant intact, asking for more results than stored
      returns exactly k records: the real hits, then the last record
      repeated in place of every `-1` of padding. */
  lemma ResolvePadding(labels: Labels, metadata: seq<Offer>, k: nat)
    requires |metadata| > 0
    requires FlatIndexLabels(labels, |metadata|, k)
    ensures |ResolveLabels(labels, metadata)| == k
    ensures forall i :: 0 <= i < k && i < |metadata| ==>
              ResolveLabels(labels, metadata)[i] == metadata[labels[i]]
    ensures forall i :: |metadata| <= i < k ==>
              ResolveLabels(labels, metadata)[i] == metadata[|metadata| - 1]
  {
    ResolveInRange(labels, metadata);
  }

  /** `search_offers`.  No index, no records, or no query embedding give an
      empty list; a query vector of the wrong dimension, or a request for no
      neighbours at all, makes the index raise. */
  function SearchOffers(st: Store, query: string, k: nat, service: EmbeddingService,
                        search: IndexSearch): (r: Result<seq<Offer>>)
    ensures st.index.None? || |st.metadata| == 0 ==> r == Success([])
    ensures GetEmbedding(service, query).None? ==> r == Success([])
    ensures r.Failure? <==> st.index.Some? && |st.metadata| > 0 && GetEmbedding(service, query).Some?
                            && (|GetEmbedding(service, query).value| != st.index.value.dim || k == 0)
    ensures r.Success? ==> forall x :: x in r.value ==> x in st.metadata
  {
    if st.index.None? || |st.metadata| == 0 then Success([])
    else
      match GetEmbedding(service, query)
      case None => Success([])
      case Some(q) =>
        if |q| != st.index.value.dim then Failure("query dimension does not match the index")
        else if k == 0 then Failure("the index refuses a search for zero neighbours")
        else Success(ResolveLabels(search(st.index.value, q, k), st.metadata))
  }
}
